=== FILE: README.md ===
# DAMRU front-end core in Dafny

DAMRU is a React/TypeScript mock-up of a messaging application. It has a splash screen, phone and one-time-code sign-in, profile setup, a chat list, a chat thread, contacts, call history and settings. All of its data come from fixed in-memory tables. This project models the parts of it that are plain state updates:

- The top-level view-state controller and its handlers, as transitions `AppState -> AppState`.
- The screen switch, whose default arm shows the splash screen.
- The directory tables and their first-match lookups.
- The list filters of the chat list and the contacts screen.
- The message and call-history appends, with their id invariants.
- The call sub-machine that the chat thread and the call-history screen each host.
- The `m:ss` call timer.
- The sign-in screen's phone sanitising, code boxes, code check and resend countdown.
- Profile construction.
- The settings edit, save and cancel machine.

Every handler is an immutable-state function. A screen's callback into the application is an emitted `Navigation.Event`, which `Navigation.Step` applies. Timers become explicit tick or elapsed events. Clock readings are parameters: `now: int` stands for `Date.now()` and `now: string` for `toLocaleTimeString`. The sample tables are the value `Directory.Seed`.

Modules, one per component:

| file | module | component |
|---|---|---|
| types.dfy | `Types` | records and closed enumerations (`Status`, `CallType`, `Sender`, `MessageType`), `Option` |
| seqs.dfy | `Seqs` | order-preserving `Filter`, first-match `Find`, subsequence |
| text.dfy | `Text` | ASCII lower-casing, `includes`, `trim`, digit filtering, decimal printing, `padStart` |
| directory.dfy | `Directory` | sample tables and the two lookups |
| navigation.dfy | `Navigation` | application state, handlers, screen switch, event runs |
| chat_list.dfy | `ChatList` | chat-list search, selection, rows, long-press menu |
| contacts_page.dfy | `ContactsPage` | contacts search with tab guard, row buttons |
| call_session.dfy | `CallSession` | call sub-machine shared in shape by both hosting screens |
| call_interface.dfy | `CallInterface` | `formatTime`, call caption, control buttons |
| chat_thread.dfy | `ChatThread` | send, call buttons, render precedence |
| calls_page.dfy | `CallsPage` | history prepend, row tap, call view |
| otp.dfy | `Otp` | sign-in screen |
| profile_setup.dfy | `ProfileSetup` | profile construction |
| settings.dfy | `Settings` | preference switches, edit machine, no-profile guard |

Behaviour worth knowing:

- `back` changes the screen only from chat, contacts, calls and settings (frontend/src/App.tsx:101-110). It is a no-op everywhere else, the chat list included.
- Apart from `handleBack`'s test of the current screen, the handlers in frontend/src/App.tsx check nothing about the screen or the session. Which callbacks a screen can fire is a separate predicate, `Navigation.Offered`, read off the screen switch. The session invariant `Navigation.Good` is proved only for runs of offered events.
- The call state is a nullable active call plus a counter (frontend/src/pages/ChatInterface.tsx). Starting a call makes it active at once; there is no intermediate "ringing" value.
- The phone number reported by the sign-in screen is dropped by `handleOTPVerified`. The profile-setup screen is always given the literal `9876543210`.

## Model

| member | source | states |
|---|---|---|
| `Directory.ContactByPosition` | frontend/src/data/mockData.ts:40-42 | in a table whose ids are the positions 1..n, the lookup succeeds exactly for ids 1..n and returns the contact at position id-1 |
| `Directory.SeedContactTable` | frontend/src/data/mockData.ts:3-19 | the sample has 15 contacts with unique ids equal to 1..15, and `isContact` holds exactly for ids 1..10 |
| `Directory.SeedReferencesResolve` | frontend/src/data/mockData.ts:21-38 | every sample conversation and every sample call-history entry refers to a contact that exists |
| `Directory.Directory.ContactById` | frontend/src/data/mockData.ts:40-42 | none exactly when no contact has the id; otherwise the first contact in table order with that id |
| `Directory.Directory.ConversationByContactId` | frontend/src/data/mockData.ts:44-46 | none exactly when no conversation has the contact id; otherwise the first such conversation in table order |
| `Seqs.Filter` | frontend/src/pages/ChatListPage.tsx:13-16 | the filter keeps only elements that pass, and every element that passes is kept |
| `Seqs.FilterCounts` | frontend/src/pages/ChatListPage.tsx:13-16 | an element that passes is kept as many times as it occurs in the input; one that fails is not kept at all |
| `Seqs.FilterIsSubsequence` | frontend/src/pages/ContactsPage.tsx:12-19 | the filter's result is a subsequence of its input, so order is preserved |
| `Seqs.FilterTwice` | frontend/src/pages/ContactsPage.tsx:15-18 | filtering by p and then by q equals filtering once by "p and q" |
| `Seqs.Find` | frontend/src/data/mockData.ts:40-46 | none exactly when no element matches; otherwise the first matching element |
| `Text.ContainsIffOccurs` | frontend/src/pages/ChatListPage.tsx:15 | `includes` is true exactly when the needle occurs at some position of the haystack |
| `Text.TrimEmptyIff` | frontend/src/pages/ChatInterface.tsx:33 | trimming gives the empty string exactly when every character is JavaScript white space |
| `Text.DecimalRoundTrip` | frontend/src/components/chat/CallInterface.tsx:29-31 | reading back the decimal text of n gives n |
| `Text.Utf16Length` | frontend/src/pages/OTPScreen.tsx:33 | JavaScript's `length` is at least the number of characters, and equal to it exactly when every character lies in the Basic Multilingual Plane |
| `Text.ShortIsBmp` | frontend/src/pages/OTPScreen.tsx:33 | a value whose `length` is at most 1 is empty or a single Basic Multilingual Plane character |
| `Navigation.Render` | frontend/src/App.tsx:119-238 | the switch shows the splash screen exactly for "splash" or an unknown name, and otherwise the screen of that name |
| `Navigation.RenderScreenName` | frontend/src/App.tsx:119-238 | the eight screen names and the eight views correspond one to one |
| `Navigation.SplashComplete` | frontend/src/App.tsx:45-47 | moves to the code screen and keeps profile and selections |
| `Navigation.OtpVerified` | frontend/src/App.tsx:49-51 | moves to the profile-setup screen and keeps profile and selections |
| `Navigation.OtpVerifiedDiscardsPhone` | frontend/src/App.tsx:49-51 | the verified phone number has no effect on the next state |
| `Navigation.ProfileComplete` | frontend/src/App.tsx:53-56 | stores the profile and moves to the chat list; selections kept |
| `Navigation.SelectChat` | frontend/src/App.tsx:58-65 | selects both the conversation and the contact and shows the chat screen; profile kept |
| `Navigation.ResolveConversation` | frontend/src/App.tsx:67-81 | the directory's first conversation with the contact is used if there is one; otherwise a new record for the contact with the clock's id, 0 unread, encrypted, unpinned, unmuted, "Start a conversation..." and "Now" |
| `Navigation.StartChat` | frontend/src/App.tsx:67-84 | selects the contact and its resolved conversation and shows the chat screen; the profile is kept |
| `Navigation.StartChatExisting` | frontend/src/App.tsx:67-84 | with a directory conversation, start-chat selects the directory's first one, and starting again leaves the state unchanged |
| `Navigation.StartChatSynthesizes` | frontend/src/App.tsx:69-81 | without one, the record's id is the clock reading, so two readings give two different records |
| `Navigation.StartCall` | frontend/src/App.tsx:87-91 | selects the contact and shows the call-history screen; profile and selected conversation kept |
| `Navigation.StartCallIgnoresType` | frontend/src/App.tsx:87-91 | a voice request and a video request give the same state |
| `Navigation.UpdateProfile` | frontend/src/App.tsx:93-95 | replaces the profile only; the screen and selections are unchanged |
| `Navigation.Navigate` | frontend/src/App.tsx:97-99 | stores any name; a name outside the eight known screens renders as the splash screen |
| `Navigation.BackTargets` | frontend/src/App.tsx:101-110 | back reaches the chat list exactly from chat, contacts, calls or settings (or stays on it), and is a no-op everywhere else |
| `Navigation.Back` | frontend/src/App.tsx:101-110 | back never touches the profile or the selections |
| `Navigation.Logout` | frontend/src/App.tsx:112-117 | from any state, the result is the initial state: the splash screen with all three session slots empty |
| `Navigation.InitGood` | frontend/src/App.tsx:17-20 | the initial state (splash screen, no profile, no selections) satisfies the session invariant |
| `Navigation.StepKeepsGood` | frontend/src/App.tsx:119-238 | an event the displayed screen can fire keeps the invariant: a known screen, a profile on every signed-in screen, and both selections on the chat screen |
| `Navigation.OfferedRunKeepsGood` | frontend/src/App.tsx:17-20 | the invariant holds after every run of offered events |
| `Navigation.SignInAndOpenChat` | frontend/src/App.tsx:45-65 | splash, code, profile, then the third conversation reaches the chat screen with conversation 3, contact 3 and the profile |
| `ChatList.Filtered` | frontend/src/pages/ChatListPage.tsx:13-16 | every listed conversation is in the directory and matches the search, and every matching one is listed |
| `ChatList.FilteredExactly` | frontend/src/pages/ChatListPage.tsx:13-16 | in directory order, the list holds exactly the conversations whose contact resolves and whose lower-cased name contains the lower-cased term, each as many times as the directory holds it |
| `ChatList.EmptySearchKeepsResolvable` | frontend/src/pages/ChatListPage.tsx:13-16 | with an empty search the list holds every conversation whose contact resolves |
| `ChatList.SeedEmptySearchListsAll` | frontend/src/pages/ChatListPage.tsx:13-16 | on the sample tables the empty search lists all six conversations |
| `ChatList.SelectChat` | frontend/src/pages/ChatListPage.tsx:18-23 | a tap opens the conversation exactly when its contact resolves, passing that contact |
| `ChatList.SelectChatOpensChat` | frontend/src/pages/ChatListPage.tsx:18-23 | in the application, a tap from the chat list reaches the chat screen with that conversation and its contact, and the tap is one the chat list offers |
| `ChatList.RowFor` | frontend/src/pages/ChatListPage.tsx:121 | the unread badge appears exactly when the unread count is positive |
| `ChatList.Rows` | frontend/src/pages/ChatListPage.tsx:89-130 | at most one row per conversation |
| `ChatList.RowsAreResolvedConversations` | frontend/src/pages/ChatListPage.tsx:89-92 | for any list, the rows show, in order, exactly the conversations whose contact resolves (the list filtered by "contact resolves") |
| `ChatList.RowsShowTheirContacts` | frontend/src/pages/ChatListPage.tsx:90-130 | every row is drawn from its conversation and the contact the directory returns for it |
| `ChatList.RowsOfFilteredComplete` | frontend/src/pages/ChatListPage.tsx:89-91 | the row loop skips nothing after the filter: one row per listed conversation, in order |
| `ChatList.PressStart` | frontend/src/pages/ChatListPage.tsx:25-30 | a press arms a fresh timer for its conversation; the menu and search are untouched |
| `ChatList.PressElapsed` | frontend/src/pages/ChatListPage.tsx:25-30 | when the long-press delay elapses, an armed timer that has not yet gone off opens the menu for its row and is spent; with no armed timer, or a spent one, nothing happens |
| `ChatList.ElapsedOnce` | frontend/src/pages/ChatListPage.tsx:26-28 | the timeout is one-shot: a second elapsed event changes nothing |
| `ChatList.PressEnd` | frontend/src/pages/ChatListPage.tsx:32-37 | release cancels the timer; the menu and search are untouched |
| `ChatList.ShortPressOpensNothing` | frontend/src/pages/ChatListPage.tsx:32-37 | a press released before the delay opens no menu |
| `ChatList.LongPressOpensOnce` | frontend/src/pages/ChatListPage.tsx:25-60 | a held press opens the menu of its conversation; once a menu entry closes it, a further elapsed event does not reopen it |
| `ChatList.MenuChosen` | frontend/src/pages/ChatListPage.tsx:39-60 | pin, mute, delete and cancel each close the menu and keep the search term, so the listed conversations stay the same |
| `ContactsPage.Filtered` | frontend/src/pages/ContactsPage.tsx:12-19 | every listed contact is in the directory and matches the search (and is a contact on the default tab), and every admitted contact is listed |
| `ContactsPage.FilteredExactly` | frontend/src/pages/ContactsPage.tsx:12-19 | in directory order, the list holds exactly the contacts whose lower-cased name contains the lower-cased term or whose phone contains the raw term, restricted to contacts on the "My Contacts" tab, each as many times as the directory holds it |
| `ContactsPage.MyContactsRefinesAllUsers` | frontend/src/pages/ContactsPage.tsx:15-18 | the default tab's result is the "All Users" result for the same term, filtered by the contact flag, in the same order |
| `ContactsPage.EmptySearchIsTabGuard` | frontend/src/pages/ContactsPage.tsx:12-19 | with an empty search, "All Users" lists the whole table and "My Contacts" lists exactly the contacts |
| `ContactsPage.SeedDefaultListing` | frontend/src/pages/ContactsPage.tsx:10-19 | the default screen on the sample tables lists exactly contacts 1..10 |
| `ContactsPage.ShowsAddButton` | frontend/src/pages/ContactsPage.tsx:93 | the add-contact button shows exactly for a non-contact on the "All Users" tab |
| `ContactsPage.MyContactsNeverOffersAdd` | frontend/src/pages/ContactsPage.tsx:93 | no row of the default tab shows the add-contact button |
| `ContactsPage.Act` | frontend/src/pages/ContactsPage.tsx:21-36 | message starts a chat; voice and video start a call of that type; add fires no callback |
| `ContactsPage.ActReachesApp` | frontend/src/pages/ContactsPage.tsx:21-36 | in the application, message reaches the chat screen on the contact's resolved conversation; voice and video reach the call-history screen; the contact is selected, the event is offered and the session invariant kept |
| `CallSession.Start` | frontend/src/pages/ChatInterface.tsx:46-58 | a call becomes active with the given contact and type, and the counter is 0 |
| `CallSession.End` | frontend/src/pages/ChatInterface.tsx:60-65 | ending gives the idle session: no call, counter 0, mute and speaker off |
| `CallSession.Tick` | frontend/src/pages/ChatInterface.tsx:26-30 | a tick adds one second only while a call is active and changes nothing else |
| `CallSession.ToggleMute` | frontend/src/pages/CallsPage.tsx:80 | flips mute only |
| `CallSession.ToggleSpeaker` | frontend/src/pages/CallsPage.tsx:81 | flips speaker only |
| `CallSession.RunKeepsQuiescent` | frontend/src/pages/CallsPage.tsx:16-20 | along any run of events, the counter is 0 whenever no call is active |
| `CallSession.ElapsedCountsTicks` | frontend/src/pages/CallsPage.tsx:16-20 | during a call, the counter grows by exactly the number of ticks, and the call stays |
| `CallSession.TogglesInvolutive` | frontend/src/pages/CallsPage.tsx:80-81 | each toggle undoes itself and the two commute |
| `CallInterface.Seconds2` | frontend/src/components/chat/CallInterface.tsx:31 | the seconds field is exactly two digits whose value is the seconds |
| `CallInterface.FormatTime` | frontend/src/components/chat/CallInterface.tsx:28-32 | digits, a colon, then two digits; the minutes have no leading zero; the seconds part is below 60 and minutes*60 + seconds is the input |
| `CallInterface.FormatTimeZero` | frontend/src/components/chat/CallInterface.tsx:28-32 | zero seconds prints as "0:00" |
| `CallInterface.CallLabel` | frontend/src/components/chat/CallInterface.tsx:46 | "Voice Call" exactly for a voice call, "Video Call" otherwise |
| `CallInterface.Controls` | frontend/src/components/chat/CallInterface.tsx:36-78 | the close button (top corner) comes first and hang-up last; the switch-to-video button is present exactly during a voice call; mute, speaker and download always are |
| `ChatThread.Send` | frontend/src/pages/ChatInterface.tsx:32-44 | a white-space-only input changes nothing; otherwise exactly one message is appended with the next id, the untrimmed text, sender user, read, plain text; earlier messages are kept and the input cleared |
| `ChatThread.SeedIdsArePositions` | frontend/src/pages/ChatInterface.tsx:9-13 | the three opening messages have ids 1, 2, 3, equal to their positions |
| `ChatThread.SendKeepsIds` | frontend/src/pages/ChatInterface.tsx:10-14 | message ids stay equal to their positions 1..n after a send |
| `ChatThread.StartCall` | frontend/src/pages/ChatInterface.tsx:46-58 | a call starts only when a contact is present, with that type and the counter at 0 |
| `ChatThread.EndCall` | frontend/src/pages/ChatInterface.tsx:60-65 | the call session is idle and the thread is untouched |
| `ChatThread.Render` | frontend/src/pages/ChatInterface.tsx:67-89 | the call view shows exactly when a call is active and a contact exists, and it is given the contact, the call type, the session's counter and its mute and speaker flags; otherwise a missing conversation or contact shows the placeholder; otherwise the thread |
| `ChatThread.ShownTimeCountsTicks` | frontend/src/pages/ChatInterface.tsx:26-30 | during a call, the timer on screen equals the counter at the start plus the number of ticks since, whatever toggles came between |
| `ChatThread.ReachedChatHasThread` | frontend/src/pages/ChatInterface.tsx:67-89 | on a chat screen that satisfies the session invariant, the placeholder never shows |
| `ChatThread.StartedCallShows` | frontend/src/pages/ChatInterface.tsx:46-89 | a call started from the header is on screen at once, with the counter at 0 |
| `CallsPage.StartCall` | frontend/src/pages/CallsPage.tsx:22-40 | an unknown contact changes nothing; a known one starts the call at 0 and puts one outgoing, answered entry with id n+1 and duration "0:00" in front of an unchanged history |
| `CallsPage.SeedIdsArePermutation` | frontend/src/data/mockData.ts:30-38 | the sample history's ids are a permutation of 1..7 |
| `CallsPage.StartCallKeepsIds` | frontend/src/pages/CallsPage.tsx:14-38 | history ids remain a permutation of 1..n |
| `CallsPage.NewCallDurationIsZeroTime` | frontend/src/pages/CallsPage.tsx:33 | the logged duration is the timer's text at zero |
| `CallsPage.HistoryItemClicked` | frontend/src/pages/CallsPage.tsx:42-62 | a tap asks for a voice call exactly when the contact resolves, passing that contact |
| `CallsPage.HistoryTapStaysOnCalls` | frontend/src/pages/CallsPage.tsx:42-62 | in the application, a tap from the call-history screen selects the contact and stays on that screen; the selected conversation is unchanged |
| `CallsPage.HistoryItemOpensChat` | frontend/src/pages/CallsPage.tsx:42-62 | the tap as its comments describe it: asks to open the chat exactly when the contact resolves |
| `CallsPage.HistoryTapOpensChat` | frontend/src/pages/CallsPage.tsx:42-62 | the corrected tap reaches the chat screen with the contact and its directory conversation, or a fresh one, and keeps the session invariant |
| `CallsPage.EndCall` | frontend/src/pages/CallsPage.tsx:64-69 | hang-up and back both leave the idle session and the same history |
| `CallsPage.StartThenEnd` | frontend/src/pages/CallsPage.tsx:22-69 | a call started and then ended leaves the session idle and the new entry in front of the old history |
| `CallsPage.Rows` | frontend/src/pages/CallsPage.tsx:95-98 | at most one row per history entry |
| `CallsPage.RowsAreResolvedEntries` | frontend/src/pages/CallsPage.tsx:95-98 | for any history, the rows show, in order, exactly the entries whose contact resolves (the history filtered by "contact resolves") |
| `CallsPage.RowsShowKnownContacts` | frontend/src/pages/CallsPage.tsx:96-98 | every row shows an entry of the history together with the contact the directory returns for it |
| `CallsPage.RowsCompleteWhenResolved` | frontend/src/pages/CallsPage.tsx:96-98 | the only reason a row is skipped is an unknown contact |
| `CallsPage.Render` | frontend/src/pages/CallsPage.tsx:71-85 | the call view replaces the list exactly while a call is active, and is given the active call, the session's counter and its mute and speaker flags |
| `CallsPage.SeedHistoryFullyListed` | frontend/src/pages/CallsPage.tsx:14 | the opening screen on the sample tables lists all seven calls |
| `Otp.SanitizePhone` | frontend/src/pages/OTPScreen.tsx:73 | the field holds only digits: the first ten digits typed, or all of them if fewer |
| `Otp.SanitizeIdempotent` | frontend/src/pages/OTPScreen.tsx:73 | sanitising the field's own content changes nothing |
| `Otp.PhoneSubmit` | frontend/src/pages/OTPScreen.tsx:21-30 | exactly ten digits move to the code step with the countdown at 30 and no error; anything else sets the error and keeps the step |
| `Otp.SubmitAfterTyping` | frontend/src/pages/OTPScreen.tsx:21-30 | through the field, the code step is reached exactly when at least ten digits were typed |
| `Otp.OtpChange` | frontend/src/pages/OTPScreen.tsx:32-33 | a value longer than one UTF-16 code unit leaves the state unchanged |
| `Otp.AstralValueIgnored` | frontend/src/pages/OTPScreen.tsx:33 | an emoji, one character but two code units, leaves the state unchanged |
| `Otp.EditEffect` | frontend/src/pages/OTPScreen.tsx:34-36 | for a value of at most one code unit: inside the code, the edit replaces the character at the index (an empty value deletes it); at or past the end it appends the value |
| `Otp.JoinSplit` | frontend/src/pages/OTPScreen.tsx:34-36 | joining the split code gives the code back |
| `Otp.OtpChangeKeepsBmp` | frontend/src/pages/OTPScreen.tsx:32-36 | a code within the Basic Multilingual Plane stays within it after any keystroke, so characters and code units coincide |
| `Otp.TypeCodeAppends` | frontend/src/pages/OTPScreen.tsx:32-40 | typing characters one per box, in order, appends them to the code |
| `Otp.Verify` | frontend/src/pages/OTPScreen.tsx:43-58 | the phone is handed on exactly for "123456"; a code whose `length` is not six only sets the error; any other code of that length sets the error and clears the boxes |
| `Otp.TypedCodeSignsIn` | frontend/src/pages/OTPScreen.tsx:32-58 | from empty boxes, typing a code and pressing verify emits exactly for "123456", and the application then shows the profile-setup screen; another six-character code clears the boxes |
| `Otp.ResendTick` | frontend/src/pages/OTPScreen.tsx:14-19 | the countdown drops by one while above 0 and stays at 0 |
| `Otp.CountdownAfter` | frontend/src/pages/OTPScreen.tsx:14-19 | after k ticks the countdown reads t-k, but never below 0 |
| `Otp.ResendClicked` | frontend/src/pages/OTPScreen.tsx:128-130 | resend works only at 0 and restarts the countdown at 30 |
| `Otp.ResendReenabledAfter30` | frontend/src/pages/OTPScreen.tsx:14-19 | once used, resend is disabled for 29 ticks and enabled again after 30 |
| `ProfileSetup.Complete` | frontend/src/pages/ProfileSetup.tsx:11-23 | a white-space-only name sets the error and emits nothing; otherwise the profile carries the untrimmed name, the status or the default status, "+91 " before the phone, the standard avatar and the toggle value |
| `ProfileSetup.ToggleSecurity` | frontend/src/pages/ProfileSetup.tsx:55 | flips the security flag only |
| `ProfileSetup.CompleteFromApplication` | frontend/src/App.tsx:166 | the profile created after sign-in always has the phone "+91 9876543210" |
| `ProfileSetup.DefaultSecurityOn` | frontend/src/pages/ProfileSetup.tsx:8 | without touching the toggle, the profile is created with security on |
| `Settings.Open` | frontend/src/pages/SettingsPage.tsx:13-23 | all three switches start on and edit mode off; the draft is the profile, or the "User" default without one |
| `Settings.Toggle` | frontend/src/pages/SettingsPage.tsx:133-169 | each switch flips only its own preference |
| `Settings.Save` | frontend/src/pages/SettingsPage.tsx:25-28 | the draft is handed to the application and edit mode ends |
| `Settings.SaveUpdatesProfile` | frontend/src/pages/SettingsPage.tsx:25-28 | after save the application's profile carries the edited name and the screen stays |
| `Settings.Cancel` | frontend/src/pages/SettingsPage.tsx:87-88 | edit mode ends and the draft keeps its edits |
| `Settings.CancelKeepsEdits` | frontend/src/pages/SettingsPage.tsx:71-105 | edits abandoned with cancel are still in the draft when editing resumes |
| `Settings.Render` | frontend/src/pages/SettingsPage.tsx:42-48 | the placeholder shows exactly when there is no profile |
| `Settings.ReachedSettingsHasProfile` | frontend/src/pages/SettingsPage.tsx:42-48 | on a settings screen that satisfies the session invariant, the placeholder never shows |

## Left out

- The installable-app prompt and its hook: browser events, an asynchronous prompt, local storage and a floating-point day count.
- Build configuration.
- Presentational components: header, security badge, message bubble, splash animation and bottom bar. The bottom bar only emits the four fixed screen names, which appear as `Navigation.NavigateTo` targets.
- Real timers: the 3-second splash delay, the 500 ms long press, the 500 ms verify delay and the one-second intervals. They become explicit tick or elapsed events.
- Clock reads (`Date.now()`, `toLocaleTimeString`). They are opaque parameters.
- `alert` and `confirm` texts, focus moves, scrolling and the user-agent mobile check.
- React rendering and state batching. Each handler is one atomic transition.
- Text.Lower: ASCII-only lower-casing, where the source uses full Unicode `toLowerCase`.
- The code screen's `loading` flag and the wait inside verify. `Otp.Verify` is one atomic step.
- ChatList.PressElapsed: one armed timer per list. The touch and mouse handlers of the source can each arm one, and the model does not keep both.
- The conversation `handleCallItemClick` computes is never used by the code as written; see "## Findings".
- `CallsPage.StartCall` models `handleStartCall`, which no element of the rendered page calls.
- Otp.Split: splits into characters, which is JavaScript's `split('')` only for strings within the Basic Multilingual Plane. `Otp.OtpChangeKeepsBmp` shows the boxes hold no other strings when they start empty.
- Otp.OtpChange: the index is a `nat`. The page only passes the box positions 0..5.
- JavaScript numbers are unbounded `int`/`nat`. No value in these handlers comes near 2^53.
- The settings draft is taken from the profile when the screen opens. Later profile changes do not reach it, as in the source.
- The visual wiring of which buttons show in edit mode. `Settings.StartEdit`, `Settings.EditName` and `Settings.EditStatus` apply whenever called.

## Findings

| source | as written | input that shows it | evidently intended | confidence | as-written member | corrected member |
|---|---|---|---|---|---|---|
| frontend/src/pages/CallsPage.tsx:42-62 | a tap on a history row looks up or builds the contact's conversation, then discards it and asks for a voice call, which frontend/src/App.tsx:87-91 handles by showing the call-history screen again | any resolvable row, e.g. contact 1 tapped on the call-history screen | the handler's comments say the tap should open the chat with that contact | medium, not executed | `CallsPage.HistoryTapStaysOnCalls` | `CallsPage.HistoryTapOpensChat` |

=== FILE: call_interface.dfy ===
/**
 The full-screen call view both hosting screens show while a call is active:
 the elapsed time as `m:ss`, the call-type caption and which buttons appear.
 */
module CallInterface {
  import opened Types
  import opened Text

  /** Reading a string of digits with a leading zero is reading it without one. */
  lemma {:induction false} LeadingZero(s: string)
    requires AllDigits(s)
    ensures AllDigits(['0'] + s) && DecimalValue(['0'] + s) == DecimalValue(s)
    decreases |s|
  {
    if s != [] {
      var t := ['0'] + s;
      assert t[..|t| - 1] == ['0'] + s[..|s| - 1];
      LeadingZero(s[..|s| - 1]);
    }
  }

  /** The seconds field: `secs.toString().padStart(2, '0')`. */
  function Seconds2(secs: nat): (r: string)
    requires secs < 60
    ensures |r| == 2 && AllDigits(r) && DecimalValue(r) == secs
  {
    var d := DecimalString(secs);
    DecimalRoundTrip(secs);
    assert |d| <= 2;
    LeadingZero(d);
    var r := PadStart(d, 2, '0');
    assert |d| == 1 ==> r == ['0'] + d;
    r
  }

  /** Minutes text, a colon, then the seconds text. */
  function Clock(m: string, s: string): (r: string)
    requires |m| > 0 && |s| == 2
    ensures |r| == |m| + 3 && r[|r| - 3] == ':' && r[0] == m[0]
    ensures r[..|r| - 3] == m && r[|r| - 2..] == s
  {
    m + ":" + s
  }

  /** `formatTime`: minutes without leading zeros, a colon, then the seconds as exactly two digits. */
  function FormatTime(seconds: nat): (r: string)
    ensures |r| >= 4 && r[|r| - 3] == ':'
    ensures |r| == 4 || r[0] != '0'
    ensures AllDigits(r[..|r| - 3]) && AllDigits(r[|r| - 2..])
    ensures DecimalValue(r[|r| - 2..]) < 60
    ensures DecimalValue(r[..|r| - 3]) * 60 + DecimalValue(r[|r| - 2..]) == seconds
  {
    var mins := seconds / 60;
    var secs := seconds % 60;
    var m := DecimalString(mins);
    var s := Seconds2(secs);
    DecimalRoundTrip(mins);
    var r := Clock(m, s);
    assert DecimalValue(r[..|r| - 3]) == mins;
    assert DecimalValue(r[|r| - 2..]) == secs;
    assert mins * 60 + secs == seconds;
    r
  }

  lemma FormatTimeZero()
    ensures FormatTime(0) == "0:00"
  {
    assert DecimalString(0) == "0";
  }

  /** Caption under the contact name. */
  function CallLabel(t: CallType): (r: string)
    ensures r == "Voice Call" <==> t == Voice
    ensures r == "Video Call" <==> t != Voice
  {
    if t == Voice then "Voice Call" else "Video Call"
  }

  /** The buttons of the call view in screen order: the close button in the top corner, then the bottom row of round buttons. */
  datatype Control = Close | Mute | Speaker | SwitchToVideo | Download | Hangup

  /**
   The close button comes first and hang-up last; the switch-to-video button is
   offered only during a voice call. Switch-to-video and download have no handler.
   */
  function Controls(t: CallType): (r: seq<Control>)
    ensures SwitchToVideo in r <==> t == Voice
    ensures Close in r && Mute in r && Speaker in r && Download in r && Hangup in r
    ensures r[0] == Close && r[|r| - 1] == Hangup
  {
    [Close, Mute, Speaker] + (if t == Voice then [SwitchToVideo] else []) + [Download, Hangup]
  }
}

=== FILE: call_session.dfy ===
/**
 The call sub-machine a screen hosts while a voice or video call is shown: idle
 (no active call) or in a call with a given contact and call type, an elapsed
 counter driven by a once-per-second tick, and two toggles. The chat thread and
 the call-history screen each own an independent value of this type; the
 transitions are the same in both.
 */
module CallSession {
  import opened Types

  datatype Session = Session(active: Option<ActiveCall>, callTime: nat, muted: bool, speaker: bool)

  /** No call, counter at 0, both toggles off: what each hosting screen starts with. */
  const Idle: Session := Session(None, 0, false, false)

  /** Starting a call shows it and restarts the counter; the toggles keep their values. */
  function Start(s: Session, contact: Contact, callType: CallType): (r: Session)
    ensures r.active == Some(ActiveCall(contact, callType)) && r.callTime == 0
    ensures r.muted == s.muted && r.speaker == s.speaker
  {
    s.(active := Some(ActiveCall(contact, callType)), callTime := 0)
  }

  /** Ending a call clears it, switches both toggles off and resets the counter. */
  function End(s: Session): (r: Session)
    ensures r == Idle
  {
    Session(None, 0, false, false)
  }

  /** The interval timer only runs while a call is active. */
  function Tick(s: Session): (r: Session)
    ensures s.active.Some? ==> r.callTime == s.callTime + 1
    ensures s.active.None? ==> r == s
    ensures r.active == s.active && r.muted == s.muted && r.speaker == s.speaker
  {
    if s.active.Some? then s.(callTime := s.callTime + 1) else s
  }

  function ToggleMute(s: Session): (r: Session)
    ensures r.muted != s.muted
    ensures r.active == s.active && r.callTime == s.callTime && r.speaker == s.speaker
  {
    s.(muted := !s.muted)
  }

  function ToggleSpeaker(s: Session): (r: Session)
    ensures r.speaker != s.speaker
    ensures r.active == s.active && r.callTime == s.callTime && r.muted == s.muted
  {
    s.(speaker := !s.speaker)
  }

  datatype Event = StartCall(contact: Contact, callType: CallType) | EndCall | Tick1s | MuteClicked | SpeakerClicked

  function Step(s: Session, e: Event): Session {
    match e
    case StartCall(c, t) => Start(s, c, t)
    case EndCall => End(s)
    case Tick1s => Tick(s)
    case MuteClicked => ToggleMute(s)
    case SpeakerClicked => ToggleSpeaker(s)
  }

  function Run(s: Session, events: seq<Event>): Session
    decreases |events|
  {
    if events == [] then s else Run(Step(s, events[0]), events[1..])
  }

  /** No time accrues outside a call: the counter is 0 whenever no call is active. */
  ghost predicate Quiescent(s: Session) {
    s.active.None? ==> s.callTime == 0
  }

  /** Every event keeps the counter stopped while idle, so no tick outlives its call. */
  lemma {:induction false} RunKeepsQuiescent(s: Session, events: seq<Event>)
    requires Quiescent(s)
    ensures Quiescent(Run(s, events))
    decreases |events|
  {
    if events != [] {
      RunKeepsQuiescent(Step(s, events[0]), events[1..]);
    }
  }

  function TickCount(events: seq<Event>): nat {
    if events == [] then 0 else (if events[0].Tick1s? then 1 else 0) + TickCount(events[1..])
  }

  predicate NoStartOrEnd(events: seq<Event>) {
    forall i :: 0 <= i < |events| ==> !events[i].StartCall? && !events[i].EndCall?
  }

  /** During a call the counter is exactly the number of ticks seen, and the call stays. */
  lemma {:induction false} ElapsedCountsTicks(s: Session, events: seq<Event>)
    requires s.active.Some?
    requires NoStartOrEnd(events)
    ensures Run(s, events).callTime == s.callTime + TickCount(events)
    ensures Run(s, events).active == s.active
    decreases |events|
  {
    if events != [] {
      ElapsedCountsTicks(Step(s, events[0]), events[1..]);
    }
  }

  /** Each toggle undoes itself and the two commute. */
  lemma TogglesInvolutive(s: Session)
    ensures ToggleMute(ToggleMute(s)) == s
    ensures ToggleSpeaker(ToggleSpeaker(s)) == s
    ensures ToggleMute(ToggleSpeaker(s)) == ToggleSpeaker(ToggleMute(s))
  {
  }
}

=== FILE: calls_page.dfy ===
/**
 The call-history screen: a local copy of the directory's call history, its own
 call sub-machine, and the list rows. `StartCall` logs an outgoing call at the
 head of the history and shows the call view; no element of the rendered screen
 calls it, so the user cannot reach it. A tap on a history row asks the
 application to start a voice call with that contact instead.
 */
module CallsPage {
  import opened Types
  import opened Directory
  import opened Seqs
  import CallSession
  import CallInterface
  import Navigation

  datatype PageState = PageState(history: seq<CallHistory>, call: CallSession.Session)

  function InitPage(dir: Directory): PageState {
    PageState(dir.callHistory, CallSession.Idle)
  }

  /** Duration text of a freshly logged call. */
  const NewCallDuration: string := "0:00"

  /** A freshly logged call reads the same as a call timer at zero. */
  lemma NewCallDurationIsZeroTime()
    ensures NewCallDuration == CallInterface.FormatTime(0)
  {
    CallInterface.FormatTimeZero();
  }

  /**
   Starting a call with an id the directory does not know changes nothing. With a
   known contact the call view opens with the counter at 0, and one outgoing,
   answered entry is put in front of the history with the next id and the clock's
   time label `now`; the earlier entries follow unchanged.
   */
  function StartCall(dir: Directory, s: PageState, contactId: int, callType: CallType, now: string): (r: PageState)
    ensures !dir.Resolves(contactId) ==> r == s
    ensures dir.Resolves(contactId) ==>
      && r.call.active == Some(ActiveCall(dir.ContactById(contactId).value, callType))
      && r.call.callTime == 0
      && |r.history| == |s.history| + 1
      && r.history[1..] == s.history
      && r.history[0] == CallHistory(|s.history| + 1, contactId, callType, NewCallDuration, now, false, false)
  {
    match dir.ContactById(contactId)
    case None => s
    case Some(contact) =>
      var entry := CallHistory(|s.history| + 1, contactId, callType, NewCallDuration, now, false, false);
      PageState([entry] + s.history, CallSession.Start(s.call, contact, callType))
  }

  /** History ids are a permutation of 1..n: each in range, no two alike. */
  ghost predicate IdsArePermutation(h: seq<CallHistory>) {
    && (forall i :: 0 <= i < |h| ==> 1 <= h[i].id <= |h|)
    && (forall i, j :: 0 <= i < j < |h| ==> h[i].id != h[j].id)
  }

  /** The sample history's ids are a permutation of 1..7. */
  lemma SeedIdsArePermutation()
    ensures IdsArePermutation(Seed.callHistory)
  {
  }

  /** Logging a call keeps the ids a permutation of 1..n. */
  lemma StartCallKeepsIds(dir: Directory, s: PageState, contactId: int, callType: CallType, now: string)
    requires IdsArePermutation(s.history)
    ensures IdsArePermutation(StartCall(dir, s, contactId, callType, now).history)
  {
    var r := StartCall(dir, s, contactId, callType, now);
    if dir.Resolves(contactId) {
      forall i | 0 < i < |r.history|
        ensures r.history[i] == s.history[i - 1]
      {
        assert r.history[i] == r.history[1..][i - 1];
      }
    }
  }

  /** A tap on a history row asks for a voice call with a contact the directory knows, and otherwise does nothing. */
  function HistoryItemClicked(dir: Directory, contactId: int): (r: Option<Navigation.Event>)
    ensures r.Some? <==> dir.Resolves(contactId)
    ensures r.Some? ==> r.value == Navigation.CallStarted(dir.ContactById(contactId).value, Voice)
  {
    match dir.ContactById(contactId)
    case Some(contact) => Some(Navigation.CallStarted(contact, Voice))
    case None => None
  }

  /**
   In the application, a tap from the call-history screen selects the contact
   and stays on that screen: the voice-call request is handled by showing the
   call history, so the chat the handler prepares is never opened.
   */
  lemma HistoryTapStaysOnCalls(dir: Directory, app: Navigation.AppState, contactId: int, now: int)
    requires app.screen == "calls"
    ensures HistoryItemClicked(dir, contactId).Some? ==>
      var app' := Navigation.Step(dir, app, HistoryItemClicked(dir, contactId).value, now);
      && Navigation.Offered(app, HistoryItemClicked(dir, contactId).value)
      && app'.screen == "calls" && app'.selectedContact == dir.ContactById(contactId)
      && app'.selectedChat == app.selectedChat && app'.profile == app.profile
  {
  }

  /**
   The tap as its handler's comments describe it: open the chat with the contact,
   through the same conversation lookup, falling back to a fresh conversation.
   */
  function HistoryItemOpensChat(dir: Directory, contactId: int): (r: Option<Navigation.Event>)
    ensures r.Some? <==> dir.Resolves(contactId)
    ensures r.Some? ==> r.value == Navigation.ChatStarted(dir.ContactById(contactId).value)
  {
    match dir.ContactById(contactId)
    case Some(contact) => Some(Navigation.ChatStarted(contact))
    case None => None
  }

  /** The corrected tap opens the chat screen on the contact's conversation and keeps the session invariant. */
  lemma HistoryTapOpensChat(dir: Directory, app: Navigation.AppState, contactId: int, now: int)
    requires Navigation.Good(app) && app.screen == "calls"
    ensures HistoryItemOpensChat(dir, contactId).Some? ==>
      var contact := dir.ContactById(contactId).value;
      var app' := Navigation.Step(dir, app, HistoryItemOpensChat(dir, contactId).value, now);
      && Navigation.Good(app')
      && app'.screen == "chat" && app'.selectedContact == Some(contact)
      && app'.selectedChat == Some(Navigation.ResolveConversation(dir, contact, now))
      && (dir.ConversationByContactId(contactId).Some? ==> app'.selectedChat == dir.ConversationByContactId(contactId))
  {
  }

  /** Hanging up, or closing the call view, ends the call; the history stays. */
  function EndCall(s: PageState): (r: PageState)
    ensures r.call == CallSession.Idle && r.history == s.history
  {
    s.(call := CallSession.End(s.call))
  }

  function Tick(s: PageState): PageState {
    s.(call := CallSession.Tick(s.call))
  }

  function ToggleMute(s: PageState): PageState {
    s.(call := CallSession.ToggleMute(s.call))
  }

  function ToggleSpeaker(s: PageState): PageState {
    s.(call := CallSession.ToggleSpeaker(s.call))
  }

  /** A call started then hung up leaves the session idle and the new entry in the history. */
  lemma StartThenEnd(dir: Directory, s: PageState, contactId: int, callType: CallType, now: string)
    requires dir.Resolves(contactId)
    ensures EndCall(StartCall(dir, s, contactId, callType, now)).call == CallSession.Idle
    ensures EndCall(StartCall(dir, s, contactId, callType, now)).history[1..] == s.history
  {
  }

  // ------------------------------------------------------------------ render

  datatype Row = Row(entry: CallHistory, contact: Contact)

  datatype Screen = InCall(call: ActiveCall, callTime: nat, muted: bool, speaker: bool) | History(rows: seq<Row>)

  /** Rows for the history, skipping any entry whose contact is unknown. */
  function Rows(dir: Directory, h: seq<CallHistory>): (r: seq<Row>)
    ensures |r| <= |h|
  {
    if h == [] then []
    else match dir.ContactById(h[0].contactId)
      case Some(contact) => [Row(h[0], contact)] + Rows(dir, h[1..])
      case None => Rows(dir, h[1..])
  }

  /** Every row shows an entry of the history with the contact the directory gives for it. */
  lemma {:induction false} RowsShowKnownContacts(dir: Directory, h: seq<CallHistory>)
    ensures forall i :: 0 <= i < |Rows(dir, h)| ==>
      Rows(dir, h)[i].entry in h && dir.ContactById(Rows(dir, h)[i].entry.contactId) == Some(Rows(dir, h)[i].contact)
  {
    if h != [] {
      RowsShowKnownContacts(dir, h[1..]);
    }
  }

  /** The history entries the rows show, in row order. */
  function Entries(rows: seq<Row>): (r: seq<CallHistory>)
    ensures |r| == |rows|
    ensures forall i :: 0 <= i < |rows| ==> r[i] == rows[i].entry
  {
    seq(|rows|, i requires 0 <= i < |rows| => rows[i].entry)
  }

  /** For any history, the rows show, in order, exactly the entries whose contact resolves. */
  lemma {:induction false} RowsAreResolvedEntries(dir: Directory, h: seq<CallHistory>)
    ensures Entries(Rows(dir, h)) == Filter(h, (e: CallHistory) => dir.Resolves(e.contactId))
  {
    if h != [] {
      RowsAreResolvedEntries(dir, h[1..]);
      var rest := Rows(dir, h[1..]);
      if dir.Resolves(h[0].contactId) {
        RowsCons(dir, h);
        var row := Row(h[0], dir.ContactById(h[0].contactId).value);
        assert Entries([row] + rest) == [h[0]] + Entries(rest);
      }
    }
  }

  /** With the head's contact known, the first row is the head's. */
  lemma RowsCons(dir: Directory, h: seq<CallHistory>)
    requires h != [] && dir.Resolves(h[0].contactId)
    ensures Rows(dir, h) == [Row(h[0], dir.ContactById(h[0].contactId).value)] + Rows(dir, h[1..])
  {
  }

  /** An unknown contact is the only reason a row is skipped. */
  lemma {:induction false} RowsCompleteWhenResolved(dir: Directory, h: seq<CallHistory>)
    requires forall i :: 0 <= i < |h| ==> dir.Resolves(h[i].contactId)
    ensures |Rows(dir, h)| == |h|
    ensures forall i :: 0 <= i < |h| ==> Rows(dir, h)[i].entry == h[i]
  {
    if h != [] {
      RowsCons(dir, h);
      forall i | 0 <= i < |h[1..]|
        ensures dir.Resolves(h[1..][i].contactId)
      {
        assert h[1..][i] == h[i + 1];
      }
      RowsCompleteWhenResolved(dir, h[1..]);
      var rest := Rows(dir, h[1..]);
      forall i | 0 < i < |h|
        ensures Rows(dir, h)[i].entry == h[i]
      {
        assert Rows(dir, h)[i] == rest[i - 1];
      }
    }
  }

  /** The call view replaces the list whenever a call is active. */
  function Render(dir: Directory, s: PageState): (r: Screen)
    ensures r.InCall? <==> s.call.active.Some?
    ensures r.InCall? ==> r.call == s.call.active.value && r.callTime == s.call.callTime
    ensures r.InCall? ==> r.muted == s.call.muted && r.speaker == s.call.speaker
    ensures r.History? ==> r.rows == Rows(dir, s.history)
  {
    match s.call.active
    case Some(call) => InCall(call, s.call.callTime, s.call.muted, s.call.speaker)
    case None => History(Rows(dir, s.history))
  }

  /** On the sample directory the opening screen lists all seven calls. */
  lemma SeedHistoryFullyListed()
    ensures Render(Seed, InitPage(Seed)) == History(Rows(Seed, Seed.callHistory))
    ensures |Rows(Seed, Seed.callHistory)| == 7
  {
    SeedReferencesResolve();
    RowsCompleteWhenResolved(Seed, Seed.callHistory);
  }
}

=== FILE: chat_list.dfy ===
/**
 The chat-list screen: a search box filtering the directory's conversations by
 the contact's name, a tap that opens a conversation, and a long-press menu whose
 pin, mute and delete entries only report and close the menu.
 */
module ChatList {
  import opened Types
  import opened Directory
  import opened Seqs
  import opened Text
  import Navigation

  /** The conversation's contact resolves and its lower-cased name includes the lower-cased term. */
  predicate Matches(dir: Directory, term: string, conv: Conversation) {
    match dir.ContactById(conv.contactId)
    case Some(contact) => Contains(Lower(contact.name), Lower(term))
    case None => false
  }

  function Filtered(dir: Directory, term: string): (r: seq<Conversation>)
    ensures forall i :: 0 <= i < |r| ==> r[i] in dir.conversations && Matches(dir, term, r[i])
    ensures forall i :: 0 <= i < |dir.conversations| && Matches(dir, term, dir.conversations[i]) ==> dir.conversations[i] in r
  {
    Filter(dir.conversations, (conv: Conversation) => Matches(dir, term, conv))
  }

  /** The conversation's contact resolves and the lower-cased term occurs in its lower-cased name. */
  ghost predicate NameHasTerm(dir: Directory, term: string, conv: Conversation) {
    && dir.ContactById(conv.contactId).Some?
    && exists k :: OccursAt(Lower(dir.ContactById(conv.contactId).value.name), Lower(term), k)
  }

  /**
   The search keeps, in directory order, exactly the conversations whose contact
   resolves and whose lower-cased name has the lower-cased term at some position,
   each as many times as the directory holds it.
   */
  lemma FilteredExactly(dir: Directory, term: string)
    ensures IsSubsequence(Filtered(dir, term), dir.conversations)
    ensures forall conv :: conv in Filtered(dir, term) <==> conv in dir.conversations && NameHasTerm(dir, term, conv)
    ensures forall conv ::
      multiset(Filtered(dir, term))[conv] == if NameHasTerm(dir, term, conv) then multiset(dir.conversations)[conv] else 0
  {
    FilterIsSubsequence(dir.conversations, (conv: Conversation) => Matches(dir, term, conv));
    FilterCounts(dir.conversations, (conv: Conversation) => Matches(dir, term, conv));
    forall conv
      ensures Matches(dir, term, conv) <==> NameHasTerm(dir, term, conv)
    {
      MatchesIff(dir, term, conv);
    }
  }

  /** The search predicate, read through `includes`. */
  lemma MatchesIff(dir: Directory, term: string, conv: Conversation)
    ensures Matches(dir, term, conv) <==> NameHasTerm(dir, term, conv)
  {
    if dir.ContactById(conv.contactId).Some? {
      ContainsIffOccurs(Lower(dir.ContactById(conv.contactId).value.name), Lower(term));
    }
  }

  /** With an empty search box every conversation whose contact resolves is listed. */
  lemma EmptySearchKeepsResolvable(dir: Directory)
    ensures Filtered(dir, "") == Filter(dir.conversations, (conv: Conversation) => dir.Resolves(conv.contactId))
  {
    forall i | 0 <= i < |dir.conversations|
      ensures Matches(dir, "", dir.conversations[i]) == dir.Resolves(dir.conversations[i].contactId)
    {
      var c := dir.ContactById(dir.conversations[i].contactId);
      if c.Some? {
        ContainsEmpty(Lower(c.value.name));
      }
    }
    FilterCongruent(dir.conversations,
      (conv: Conversation) => Matches(dir, "", conv),
      (conv: Conversation) => dir.Resolves(conv.contactId));
  }

  /** On the sample directory the empty search lists all six conversations. */
  lemma SeedEmptySearchListsAll()
    ensures Filtered(Seed, "") == Seed.conversations
  {
    EmptySearchKeepsResolvable(Seed);
    SeedReferencesResolve();
    FilterKeepsAll(Seed.conversations, (conv: Conversation) => Seed.Resolves(conv.contactId));
  }

  /** A tap opens the conversation with its contact, or does nothing if the contact is unknown. */
  function SelectChat(dir: Directory, conv: Conversation): (r: Option<Navigation.Event>)
    ensures r.Some? <==> dir.Resolves(conv.contactId)
    ensures r.Some? ==> r.value.ChatSelected? && r.value.conversation == conv
                        && r.value.contact.id == conv.contactId && r.value.contact in dir.contacts
  {
    match dir.ContactById(conv.contactId)
    case Some(contact) => Some(Navigation.ChatSelected(conv, contact))
    case None => None
  }

  /** In the application, a tap on the chat list opens the chat screen with that conversation and its contact. */
  lemma SelectChatOpensChat(dir: Directory, app: Navigation.AppState, conv: Conversation, now: int)
    requires app.screen == "chats"
    ensures SelectChat(dir, conv).Some? ==>
      var app' := Navigation.Step(dir, app, SelectChat(dir, conv).value, now);
      && Navigation.Offered(app, SelectChat(dir, conv).value)
      && app'.screen == "chat" && app'.selectedChat == Some(conv)
      && app'.selectedContact == dir.ContactById(conv.contactId) && app'.profile == app.profile
  {
  }

  // ------------------------------------------------------------------ rows

  /** What one list row shows; the unread badge appears only for a positive count. */
  datatype Row = Row(
    conversation: Conversation,
    name: string,
    avatar: string,
    pinIcon: bool,
    preview: string,
    timestamp: string,
    badge: Option<int>)

  function RowFor(conv: Conversation, contact: Contact): (r: Row)
    ensures r.badge.Some? <==> conv.unread > 0
    ensures r.badge.Some? ==> r.badge.value == conv.unread
    ensures r.pinIcon == conv.pinned
  {
    Row(conv, contact.name, contact.avatar, conv.pinned, conv.lastMessage, conv.timestamp,
        if conv.unread > 0 then Some(conv.unread) else None)
  }

  /** The rendered list: a row per conversation, skipping any whose contact is unknown. */
  function Rows(dir: Directory, convs: seq<Conversation>): (r: seq<Row>)
    ensures |r| <= |convs|
  {
    if convs == [] then []
    else match dir.ContactById(convs[0].contactId)
      case Some(contact) => [RowFor(convs[0], contact)] + Rows(dir, convs[1..])
      case None => Rows(dir, convs[1..])
  }

  /** The conversations the rows show, in row order. */
  function RowConversations(rows: seq<Row>): (r: seq<Conversation>)
    ensures |r| == |rows|
    ensures forall i :: 0 <= i < |rows| ==> r[i] == rows[i].conversation
  {
    seq(|rows|, i requires 0 <= i < |rows| => rows[i].conversation)
  }

  /** With the head's contact known, the first row is the head's. */
  lemma RowsCons(dir: Directory, convs: seq<Conversation>)
    requires convs != [] && dir.Resolves(convs[0].contactId)
    ensures Rows(dir, convs) == [RowFor(convs[0], dir.ContactById(convs[0].contactId).value)] + Rows(dir, convs[1..])
  {
  }

  /** For any list, the rows show, in order, exactly the conversations whose contact resolves. */
  lemma {:induction false} RowsAreResolvedConversations(dir: Directory, convs: seq<Conversation>)
    ensures RowConversations(Rows(dir, convs)) == Filter(convs, (conv: Conversation) => dir.Resolves(conv.contactId))
  {
    var p := (conv: Conversation) => dir.Resolves(conv.contactId);
    if convs != [] {
      RowsAreResolvedConversations(dir, convs[1..]);
      var rest := Rows(dir, convs[1..]);
      assert RowConversations(rest) == Filter(convs[1..], p);
      if p(convs[0]) {
        RowsCons(dir, convs);
        var row := RowFor(convs[0], dir.ContactById(convs[0].contactId).value);
        assert RowConversations([row] + rest) == [convs[0]] + RowConversations(rest);
        assert Filter(convs, p) == [convs[0]] + Filter(convs[1..], p);
      } else {
        assert Rows(dir, convs) == rest;
        assert Filter(convs, p) == Filter(convs[1..], p);
      }
    }
  }

  /** Each row is drawn with the contact the directory gives for its conversation. */
  lemma {:induction false} RowsShowTheirContacts(dir: Directory, convs: seq<Conversation>)
    ensures forall i :: 0 <= i < |Rows(dir, convs)| ==>
      && dir.Resolves(Rows(dir, convs)[i].conversation.contactId)
      && Rows(dir, convs)[i] == RowFor(Rows(dir, convs)[i].conversation, dir.ContactById(Rows(dir, convs)[i].conversation.contactId).value)
  {
    if convs != [] {
      RowsShowTheirContacts(dir, convs[1..]);
      if dir.Resolves(convs[0].contactId) {
        RowsCons(dir, convs);
      }
    }
  }

  /** After the search filter nothing is skipped: there is one row per listed conversation, in order. */
  lemma {:induction false} RowsOfFilteredComplete(dir: Directory, convs: seq<Conversation>, term: string)
    requires forall i :: 0 <= i < |convs| ==> Matches(dir, term, convs[i])
    ensures |Rows(dir, convs)| == |convs|
    ensures forall i :: 0 <= i < |convs| ==> Rows(dir, convs)[i].conversation == convs[i]
  {
    if convs != [] {
      RowsOfFilteredComplete(dir, convs[1..], term);
    }
  }

  // ------------------------------------------------------------------ menu

  /**
   `pressTimer` is the conversation whose long-press timeout is armed; `fired`
   records that this one-shot timeout has already gone off.
   */
  datatype ListState = ListState(searchTerm: string, menuOpen: Option<int>, pressTimer: Option<int>, fired: bool)

  const InitList: ListState := ListState("", None, None, false)

  function SetSearch(s: ListState, term: string): ListState {
    s.(searchTerm := term)
  }

  /** Pressing a row arms a fresh long-press timer for that conversation. */
  function PressStart(s: ListState, convId: int): (r: ListState)
    ensures r.pressTimer == Some(convId) && !r.fired
    ensures r.searchTerm == s.searchTerm && r.menuOpen == s.menuOpen
  {
    s.(pressTimer := Some(convId), fired := false)
  }

  /** Releasing (or leaving) the row cancels the timer. */
  function PressEnd(s: ListState): (r: ListState)
    ensures r.pressTimer.None? && !r.fired
    ensures r.searchTerm == s.searchTerm && r.menuOpen == s.menuOpen
  {
    s.(pressTimer := None, fired := false)
  }

  /**
   The long-press delay elapsed: a timer that is armed and has not yet gone off
   opens the menu of its conversation and is spent; otherwise nothing happens.
   */
  function PressElapsed(s: ListState): (r: ListState)
    ensures r.pressTimer == s.pressTimer && r.searchTerm == s.searchTerm
    ensures s.pressTimer.Some? && !s.fired ==> r.menuOpen == s.pressTimer && r.fired
    ensures s.pressTimer.None? || s.fired ==> r == s
  {
    match s.pressTimer
    case Some(id) => if s.fired then s else s.(menuOpen := Some(id), fired := true)
    case None => s
  }

  /** The timeout is one-shot: a second elapsed event changes nothing. */
  lemma ElapsedOnce(s: ListState)
    ensures PressElapsed(PressElapsed(s)) == PressElapsed(s)
  {
  }

  /** A press released before the delay never opens a menu. */
  lemma ShortPressOpensNothing(s: ListState, convId: int)
    ensures PressElapsed(PressEnd(PressStart(s, convId))).menuOpen == s.menuOpen
  {
  }

  datatype MenuAction = Pin | Mute | Delete | Cancel

  /** Every menu entry closes the menu; the conversation data stay as they are. */
  function MenuChosen(s: ListState, action: MenuAction): (r: ListState)
    ensures r.menuOpen.None?
    ensures r.searchTerm == s.searchTerm && r.pressTimer == s.pressTimer && r.fired == s.fired
  {
    s.(menuOpen := None)
  }

  /**
   A held press opens the menu of its conversation; once a menu entry closes it,
   no further elapsed event reopens it until the next press.
   */
  lemma LongPressOpensOnce(s: ListState, convId: int, action: MenuAction)
    ensures PressElapsed(PressStart(s, convId)).menuOpen == Some(convId)
    ensures PressElapsed(MenuChosen(PressElapsed(PressStart(s, convId)), action)).menuOpen.None?
  {
  }
}

=== FILE: chat_thread.dfy ===
/**
 The open chat thread: a local message list seeded with three messages, the
 input box, and a call sub-machine started from the header's call buttons. What
 the screen shows is decided in a fixed order: the call view, then the
 "no conversation" placeholder, then the thread itself.
 */
module ChatThread {
  import opened Types
  import opened Text
  import CallSession
  import Navigation

  datatype ThreadState = ThreadState(messages: seq<Message>, input: string, call: CallSession.Session)

  const SeedMessages: seq<Message> := [
    Message(1, "Hi there!", Other, "10:30 AM", true, PlainText),
    Message(2, "Hey! How are you?", User, "10:31 AM", true, PlainText),
    Message(3, "I'm doing great! Talk later?", Other, "10:32 AM", false, PlainText)
  ]

  const InitThread: ThreadState := ThreadState(SeedMessages, "", CallSession.Idle)

  /** Message ids are the positions 1..n of the list. */
  ghost predicate IdsArePositions(messages: seq<Message>) {
    forall i :: 0 <= i < |messages| ==> messages[i].id == i + 1
  }

  function SetInput(s: ThreadState, text: string): ThreadState {
    s.(input := text)
  }

  /**
   Sending ignores an input that is white space throughout. Otherwise exactly one
   message is appended: the next id, the input as typed (untrimmed), from the user,
   read, plain text, stamped with the clock's time label `now`; the input is cleared.
   */
  function Send(s: ThreadState, now: string): (r: ThreadState)
    ensures AllSpace(s.input) ==> r == s
    ensures !AllSpace(s.input) ==>
      && |r.messages| == |s.messages| + 1
      && r.messages[..|s.messages|] == s.messages
      && r.messages[|s.messages|] == Message(|s.messages| + 1, s.input, User, now, true, PlainText)
      && r.input == ""
      && r.call == s.call
  {
    TrimEmptyIff(s.input);
    if Trim(s.input) != [] then
      s.(messages := s.messages + [Message(|s.messages| + 1, s.input, User, now, true, PlainText)], input := "")
    else s
  }

  /** The three opening messages carry ids 1, 2, 3. */
  lemma SeedIdsArePositions()
    ensures IdsArePositions(InitThread.messages)
  {
  }

  /** Sending keeps message ids equal to positions. */
  lemma SendKeepsIds(s: ThreadState, now: string)
    requires IdsArePositions(s.messages)
    ensures IdsArePositions(Send(s, now).messages)
  {
    var r := Send(s, now);
    if !AllSpace(s.input) {
      forall i | 0 <= i < |r.messages|
        ensures r.messages[i].id == i + 1
      {
        if i < |s.messages| {
          assert r.messages[i] == r.messages[..|s.messages|][i];
        }
      }
    }
  }

  // ------------------------------------------------------------------ calls

  /** The header's call buttons start a call only when a contact is present. */
  function StartCall(s: ThreadState, contact: Option<Contact>, callType: CallType): (r: ThreadState)
    ensures contact.None? ==> r == s
    ensures contact.Some? ==> r.call.active == Some(ActiveCall(contact.value, callType)) && r.call.callTime == 0
    ensures r.messages == s.messages && r.input == s.input
  {
    match contact
    case Some(c) => s.(call := CallSession.Start(s.call, c, callType))
    case None => s
  }

  function VoiceCall(s: ThreadState, contact: Option<Contact>): ThreadState {
    StartCall(s, contact, Voice)
  }

  function VideoCall(s: ThreadState, contact: Option<Contact>): ThreadState {
    StartCall(s, contact, Video)
  }

  /** Hanging up, or closing the call view, ends the call; the thread is untouched. */
  function EndCall(s: ThreadState): (r: ThreadState)
    ensures r.call == CallSession.Idle
    ensures r.messages == s.messages && r.input == s.input
  {
    s.(call := CallSession.End(s.call))
  }

  function Tick(s: ThreadState): ThreadState {
    s.(call := CallSession.Tick(s.call))
  }

  // ------------------------------------------------------------------ render

  datatype Screen =
    | InCall(contact: Contact, callType: CallType, callTime: nat, muted: bool, speaker: bool)
    | NoConversation
    | Thread(title: string, messages: seq<Message>)

  /** The call view wins when both a call and a contact exist; otherwise a missing conversation or contact shows the placeholder. */
  function Render(s: ThreadState, conversation: Option<Conversation>, contact: Option<Contact>): (r: Screen)
    ensures r.InCall? <==> s.call.active.Some? && contact.Some?
    ensures r.NoConversation? <==> !r.InCall? && (conversation.None? || contact.None?)
    ensures r.InCall? ==> r.contact == contact.value && r.callType == s.call.active.value.callType
    ensures r.InCall? ==> r.callTime == s.call.callTime && r.muted == s.call.muted && r.speaker == s.call.speaker
    ensures r.Thread? ==> r.title == contact.value.name && r.messages == s.messages
  {
    if s.call.active.Some? && contact.Some? then
      InCall(contact.value, s.call.active.value.callType, s.call.callTime, s.call.muted, s.call.speaker)
    else if conversation.None? || contact.None? then NoConversation
    else Thread(contact.value.name, s.messages)
  }

  /** On the chat screen of a session the UI reached, the placeholder never shows. */
  lemma ReachedChatHasThread(app: Navigation.AppState, s: ThreadState)
    requires Navigation.Good(app) && app.screen == "chat"
    ensures !Render(s, app.selectedChat, app.selectedContact).NoConversation?
  {
  }

  /** A call started from the header is on screen at once, with the counter at 0. */
  lemma StartedCallShows(s: ThreadState, conversation: Option<Conversation>, contact: Contact, t: CallType)
    ensures Render(StartCall(s, Some(contact), t), conversation, Some(contact)) == InCall(contact, t, 0, s.call.muted, s.call.speaker)
  {
  }

  /** The call view's timer shows exactly the ticks seen since the call started, whatever toggles came between. */
  lemma ShownTimeCountsTicks(s: ThreadState, events: seq<CallSession.Event>, conversation: Option<Conversation>, contact: Contact)
    requires s.call.active.Some? && CallSession.NoStartOrEnd(events)
    ensures
      var r := Render(s.(call := CallSession.Run(s.call, events)), conversation, Some(contact));
      r.InCall? && r.callTime == s.call.callTime + CallSession.TickCount(events)
  {
    CallSession.ElapsedCountsTicks(s.call, events);
  }
}

=== FILE: contacts_page.dfy ===
/**
 The contacts screen: a search over names and phone numbers, two tabs ("My
 Contacts", the default, and "All Users"), and per-row buttons that start a
 chat, a voice call or a video call, plus an add-contact button that only reports.
 */
module ContactsPage {
  import opened Types
  import opened Directory
  import opened Seqs
  import opened Text
  import Navigation

  datatype Tab = MyContacts | AllUsers

  datatype PageState = PageState(searchTerm: string, tab: Tab)

  const InitPage: PageState := PageState("", MyContacts)

  function SetSearch(s: PageState, term: string): PageState {
    s.(searchTerm := term)
  }

  function SelectTab(s: PageState, tab: Tab): PageState {
    s.(tab := tab)
  }

  /** Lower-cased name includes the lower-cased term, or the raw phone includes the raw term. */
  predicate MatchesSearch(term: string, c: Contact) {
    Contains(Lower(c.name), Lower(term)) || Contains(c.phone, term)
  }

  /** The tab guard: "My Contacts" also demands the contact flag. */
  predicate Keep(s: PageState, c: Contact) {
    if s.tab == MyContacts then MatchesSearch(s.searchTerm, c) && c.isContact
    else MatchesSearch(s.searchTerm, c)
  }

  function Filtered(dir: Directory, s: PageState): (r: seq<Contact>)
    ensures forall i :: 0 <= i < |r| ==> r[i] in dir.contacts && MatchesSearch(s.searchTerm, r[i])
    ensures s.tab == MyContacts ==> forall i :: 0 <= i < |r| ==> r[i].isContact
    ensures forall i :: 0 <= i < |dir.contacts| && Keep(s, dir.contacts[i]) ==> dir.contacts[i] in r
  {
    Filter(dir.contacts, (c: Contact) => Keep(s, c))
  }

  /** The search admits the contact by name or phone, and the tab guard lets it through. */
  ghost predicate Admitted(s: PageState, c: Contact) {
    && ((exists k :: OccursAt(Lower(c.name), Lower(s.searchTerm), k)) || (exists k :: OccursAt(c.phone, s.searchTerm, k)))
    && (s.tab == MyContacts ==> c.isContact)
  }

  /** The results keep directory order, and a contact is listed exactly when the search (and tab) admits it, as often as the directory holds it. */
  lemma FilteredExactly(dir: Directory, s: PageState)
    ensures IsSubsequence(Filtered(dir, s), dir.contacts)
    ensures forall c :: c in Filtered(dir, s) <==>
      && c in dir.contacts
      && ((exists k :: OccursAt(Lower(c.name), Lower(s.searchTerm), k)) || (exists k :: OccursAt(c.phone, s.searchTerm, k)))
      && (s.tab == MyContacts ==> c.isContact)
    ensures forall c: Contact ::
      multiset(Filtered(dir, s))[c] == if Admitted(s, c) then multiset(dir.contacts)[c] else 0
  {
    FilterIsSubsequence(dir.contacts, (c: Contact) => Keep(s, c));
    FilterCounts(dir.contacts, (c: Contact) => Keep(s, c));
    forall c: Contact
      ensures c in Filtered(dir, s) <==>
        && c in dir.contacts
        && ((exists k :: OccursAt(Lower(c.name), Lower(s.searchTerm), k)) || (exists k :: OccursAt(c.phone, s.searchTerm, k)))
        && (s.tab == MyContacts ==> c.isContact)
      ensures multiset(Filtered(dir, s))[c] == if Admitted(s, c) then multiset(dir.contacts)[c] else 0
    {
      ContainsIffOccurs(Lower(c.name), Lower(s.searchTerm));
      ContainsIffOccurs(c.phone, s.searchTerm);
    }
  }

  /** "My Contacts" shows the "All Users" results for the same term that are contacts, in the same order. */
  lemma MyContactsRefinesAllUsers(dir: Directory, term: string)
    ensures Filtered(dir, PageState(term, MyContacts))
         == Filter(Filtered(dir, PageState(term, AllUsers)), (c: Contact) => c.isContact)
    ensures IsSubsequence(Filtered(dir, PageState(term, MyContacts)), Filtered(dir, PageState(term, AllUsers)))
  {
    var mine := (c: Contact) => Keep(PageState(term, MyContacts), c);
    var all := (c: Contact) => Keep(PageState(term, AllUsers), c);
    var flag := (c: Contact) => c.isContact;
    FilterTwice(dir.contacts, all, flag, mine);
    FilterIsSubsequence(Filtered(dir, PageState(term, AllUsers)), flag);
  }

  /** With an empty search box the search admits everyone, so only the tab guard filters. */
  lemma EmptySearchIsTabGuard(dir: Directory)
    ensures Filtered(dir, PageState("", AllUsers)) == dir.contacts
    ensures Filtered(dir, PageState("", MyContacts)) == Filter(dir.contacts, (c: Contact) => c.isContact)
  {
    var flag := (c: Contact) => c.isContact;
    var mine := (c: Contact) => Keep(PageState("", MyContacts), c);
    var all := (c: Contact) => Keep(PageState("", AllUsers), c);
    forall i | 0 <= i < |dir.contacts|
      ensures all(dir.contacts[i]) && mine(dir.contacts[i]) == flag(dir.contacts[i])
    {
      ContainsEmpty(Lower(dir.contacts[i].name));
    }
    FilterKeepsAll(dir.contacts, all);
    FilterCongruent(dir.contacts, mine, flag);
  }

  /** A table whose contacts come first lists exactly that prefix under the contact flag. */
  lemma ContactsFirst(cs: seq<Contact>, k: nat)
    requires k <= |cs|
    requires forall i :: 0 <= i < |cs| ==> (cs[i].isContact <==> i < k)
    ensures Filter(cs, (c: Contact) => c.isContact) == cs[..k]
  {
    var flag := (c: Contact) => c.isContact;
    assert cs == cs[..k] + cs[k..];
    FilterConcat(cs[..k], cs[k..], flag);
    FilterKeepsAll(cs[..k], flag);
    FilterKeepsNone(cs[k..], flag);
  }

  /** On the sample directory the default screen lists exactly contacts 1..10. */
  lemma SeedDefaultListing()
    ensures Filtered(Seed, InitPage) == Seed.contacts[..10]
  {
    EmptySearchIsTabGuard(Seed);
    SeedContactTable();
    ContactsFirst(Seed.contacts, 10);
  }

  /** The add-contact button appears on a row only for a non-contact on the "All Users" tab. */
  function ShowsAddButton(s: PageState, c: Contact): (r: bool)
    ensures r <==> s.tab == AllUsers && !c.isContact
  {
    !c.isContact && s.tab == AllUsers
  }

  /** No listed row of "My Contacts" ever offers the add-contact button. */
  lemma MyContactsNeverOffersAdd(dir: Directory, term: string)
    ensures forall i :: 0 <= i < |Filtered(dir, PageState(term, MyContacts))| ==>
      !ShowsAddButton(PageState(term, MyContacts), Filtered(dir, PageState(term, MyContacts))[i])
  {
  }

  datatype RowAction = MessageClicked | VoiceClicked | VideoClicked | AddClicked

  /** The callback a row button fires: chat, voice call, video call; adding only reports. */
  function Act(c: Contact, action: RowAction): (r: Option<Navigation.Event>)
    ensures action == MessageClicked <==> r == Some(Navigation.ChatStarted(c))
    ensures action == VoiceClicked <==> r == Some(Navigation.CallStarted(c, Voice))
    ensures action == VideoClicked <==> r == Some(Navigation.CallStarted(c, Video))
    ensures action == AddClicked <==> r.None?
  {
    match action
    case MessageClicked => Some(Navigation.ChatStarted(c))
    case VoiceClicked => Some(Navigation.CallStarted(c, Voice))
    case VideoClicked => Some(Navigation.CallStarted(c, Video))
    case AddClicked => None
  }

  /**
   In the application, the message button opens the contact's chat and either
   call button shows the call-history screen; both select the contact. Adding
   emits nothing.
   */
  lemma ActReachesApp(dir: Directory, app: Navigation.AppState, c: Contact, action: RowAction, now: int)
    requires Navigation.Good(app) && app.screen == "contacts"
    ensures Act(c, action).None? <==> action == AddClicked
    ensures action != AddClicked ==>
      var app' := Navigation.Step(dir, app, Act(c, action).value, now);
      && Navigation.Offered(app, Act(c, action).value)
      && Navigation.Good(app')
      && app'.selectedContact == Some(c) && app'.profile == app.profile
      && (action == MessageClicked ==>
            app'.screen == "chat" && app'.selectedChat == Some(Navigation.ResolveConversation(dir, c, now)))
      && (action != MessageClicked ==> app'.screen == "calls" && app'.selectedChat == app.selectedChat)
  {
    if action != AddClicked {
      Navigation.StepKeepsGood(dir, app, Act(c, action).value, now);
    }
  }
}

=== FILE: directory.dfy ===
/**
 The read-only in-memory directory every screen queries: the contact table, the
 conversation summaries and the call history, and the two first-match lookups.
 Screens receive the directory as a value; the application passes `Seed`, the
 fixed sample tables the front-end ships with.
 */
module Directory {
  import opened Types
  import Seqs

  datatype Directory = Directory(
    contacts: seq<Contact>,
    conversations: seq<Conversation>,
    callHistory: seq<CallHistory>)
  {
    /** `getContactById`: the first contact with this id; never fails. */
    function ContactById(id: int): (r: Option<Contact>)
      ensures r.None? <==> forall i :: 0 <= i < |contacts| ==> contacts[i].id != id
      ensures r.Some? ==> r.value.id == id && r.value in contacts
      ensures r.Some? ==> exists i :: 0 <= i < |contacts| && contacts[i] == r.value
                                      && forall j :: 0 <= j < i ==> contacts[j].id != id
    {
      Seqs.Find(contacts, (c: Contact) => c.id == id)
    }

    /** `getConversationByContactId`: the first conversation held with this contact. */
    function ConversationByContactId(contactId: int): (r: Option<Conversation>)
      ensures r.None? <==> forall i :: 0 <= i < |conversations| ==> conversations[i].contactId != contactId
      ensures r.Some? ==> r.value.contactId == contactId && r.value in conversations
      ensures r.Some? ==> exists i :: 0 <= i < |conversations| && conversations[i] == r.value
                                      && forall j :: 0 <= j < i ==> conversations[j].contactId != contactId
    {
      Seqs.Find(conversations, (c: Conversation) => c.contactId == contactId)
    }

    predicate Resolves(contactId: int) {
      ContactById(contactId).Some?
    }
  }

  /** Contact ids are the positions 1..n of the table. */
  ghost predicate IdsArePositions(contacts: seq<Contact>) {
    forall i :: 0 <= i < |contacts| ==> contacts[i].id == i + 1
  }

  /** With positional ids the lookup is plain indexing, and succeeds exactly on 1..n. */
  lemma ContactByPosition(d: Directory, id: int)
    requires IdsArePositions(d.contacts)
    ensures d.ContactById(id).Some? <==> 1 <= id <= |d.contacts|
    ensures 1 <= id <= |d.contacts| ==> d.ContactById(id) == Some(d.contacts[id - 1])
  {
    if 1 <= id <= |d.contacts| {
      assert d.contacts[id - 1].id == id;
      var r := d.ContactById(id);
      var i :| 0 <= i < |d.contacts| && d.contacts[i] == r.value
               && forall j :: 0 <= j < i ==> d.contacts[j].id != id;
      assert i == id - 1;
    }
  }

  // ------------------------------------------------------------ sample tables

  const Man: string := "\U{1F468}"
  const Woman: string := "\U{1F469}"

  const SeedContacts: seq<Contact> := [
    Contact(1, "Raj Sharma", Online, "2 min ago", Man, "+91 98765 43210", true),
    Contact(2, "Priya Patel", Offline, "1 hour ago", Woman, "+91 87654 32109", true),
    Contact(3, "Amit Kumar", Online, "5 min ago", Man, "+91 76543 21098", true),
    Contact(4, "Neha Gupta", Online, "now", Woman, "+91 65432 10987", true),
    Contact(5, "Sanjay Singh", Away, "30 min ago", Man, "+91 94321 09876", true),
    Contact(6, "Anjali Mehta", Online, "10 min ago", Woman, "+91 83210 98765", true),
    Contact(7, "Vikram Joshi", Offline, "2 hours ago", Man, "+91 72109 87654", true),
    Contact(8, "Sneha Reddy", Online, "just now", Woman, "+91 61098 76543", true),
    Contact(9, "Rahul Verma", Away, "45 min ago", Man, "+91 50987 65432", true),
    Contact(10, "Pooja Mishra", Online, "3 min ago", Woman, "+91 49876 54321", true),
    Contact(11, "Arun Desai", Offline, "5 hours ago", Man, "+91 38765 43210", false),
    Contact(12, "Kavita Nair", Online, "1 min ago", Woman, "+91 27654 32109", false),
    Contact(13, "Deepak Iyer", Away, "20 min ago", Man, "+91 16543 21098", false),
    Contact(14, "Meera Choudhary", Online, "just now", Woman, "+91 95432 10987", false),
    Contact(15, "Suresh Menon", Offline, "1 day ago", Man, "+91 84321 09876", false)
  ]

  const SeedConversations: seq<Conversation> := [
    Conversation(1, 1, "Meeting at 3 PM tomorrow?", "2:30 PM", 2, true, false, false),
    Conversation(2, 2, "Thanks for the documents!", "1:15 PM", 0, true, false, false),
    Conversation(3, 3, "Let's catch up this weekend", "Yesterday", 5, true, true, false),
    Conversation(4, 4, "Dinner tonight?", "11:45 AM", 1, true, false, true),
    Conversation(5, 5, "Project completed successfully", "10:20 AM", 0, true, false, false),
    Conversation(6, 6, "Call me when you're free", "Yesterday", 3, true, false, false)
  ]

  const SeedCallHistory: seq<CallHistory> := [
    CallHistory(1, 1, Voice, "2:45", "3:30 PM", false, false),
    CallHistory(2, 2, Voice, "0:00", "2:15 PM", true, true),
    CallHistory(3, 3, Video, "5:20", "Yesterday", false, true),
    CallHistory(4, 4, Video, "12:10", "2 days ago", false, false),
    CallHistory(5, 5, Voice, "1:30", "2 days ago", true, true),
    CallHistory(6, 6, Voice, "3:15", "3 days ago", false, false),
    CallHistory(7, 7, Video, "7:45", "4 days ago", false, true)
  ]

  const Seed: Directory := Directory(SeedContacts, SeedConversations, SeedCallHistory)

  /** The sample contacts carry ids 1..15, so ids are unique, and exactly 1..10 are "my contacts". */
  lemma SeedContactTable()
    ensures |Seed.contacts| == 15
    ensures IdsArePositions(Seed.contacts)
    ensures forall i, j :: 0 <= i < j < |Seed.contacts| ==> Seed.contacts[i].id != Seed.contacts[j].id
    ensures forall i :: 0 <= i < |Seed.contacts| ==> (Seed.contacts[i].isContact <==> Seed.contacts[i].id <= 10)
  {
  }

  /** Every sample conversation and call-history entry names a contact the directory knows. */
  lemma SeedReferencesResolve()
    ensures forall i :: 0 <= i < |Seed.conversations| ==> Seed.Resolves(Seed.conversations[i].contactId)
    ensures forall i :: 0 <= i < |Seed.callHistory| ==> Seed.Resolves(Seed.callHistory[i].contactId)
  {
    SeedContactTable();
    forall i | 0 <= i < |Seed.conversations|
      ensures Seed.Resolves(Seed.conversations[i].contactId)
    {
      ContactByPosition(Seed, Seed.conversations[i].contactId);
    }
    forall i | 0 <= i < |Seed.callHistory|
      ensures Seed.Resolves(Seed.callHistory[i].contactId)
    {
      ContactByPosition(Seed, Seed.callHistory[i].contactId);
    }
  }
}

=== FILE: navigation.dfy ===
/**
 The top-level view-state controller. Its state is the current screen name (any
 string can be stored), the signed-in user's profile, and the conversation and
 contact last selected. Each handler the screens call back is a transition
 `AppState -> AppState`; `Render` is the screen switch, whose default arm shows
 the splash screen for a name it does not know.
 */
module Navigation {
  import opened Types
  import opened Directory

  datatype AppState = AppState(
    screen: string,
    profile: Option<UserProfile>,
    selectedChat: Option<Conversation>,
    selectedContact: Option<Contact>)

  /** The application starts on the splash screen with an empty session. */
  const Init: AppState := AppState("splash", None, None, None)

  /** The phone number the profile-setup screen is always given, whatever was verified. */
  const ProfileSetupPhone: string := "9876543210"

  /** Placeholder preview and timestamp of a conversation created on the spot. */
  const NewConversationPreview: string := "Start a conversation..."
  const NewConversationTimestamp: string := "Now"

  // ------------------------------------------------------------------ screens

  datatype View = SplashView | OtpView | ProfileView | ChatsView | ChatView | ContactsView | CallsView | SettingsView

  function ScreenName(v: View): string {
    match v
    case SplashView => "splash"
    case OtpView => "otp"
    case ProfileView => "profile"
    case ChatsView => "chats"
    case ChatView => "chat"
    case ContactsView => "contacts"
    case CallsView => "calls"
    case SettingsView => "settings"
  }

  const KnownScreens: set<string> := {"splash", "otp", "profile", "chats", "chat", "contacts", "calls", "settings"}

  /** The screens a signed-in user moves between. */
  const SessionScreens: set<string> := {"chats", "chat", "contacts", "calls", "settings"}

  /** The screens whose back button returns to the chat list. */
  const BackScreens: set<string> := {"chat", "contacts", "calls", "settings"}

  /** The names the bottom navigation bar and the in-page shortcuts emit. */
  const NavTargets: set<string> := {"chats", "contacts", "calls", "settings"}

  /** The screen switch; an unknown name falls through to the splash screen. */
  function Render(screen: string): (v: View)
    ensures v == SplashView <==> screen == "splash" || screen !in KnownScreens
    ensures screen in KnownScreens ==> ScreenName(v) == screen
  {
    match screen
    case "otp" => OtpView
    case "profile" => ProfileView
    case "chats" => ChatsView
    case "chat" => ChatView
    case "contacts" => ContactsView
    case "calls" => CallsView
    case "settings" => SettingsView
    case _ => SplashView
  }

  /** Screen names and views correspond one to one. */
  lemma RenderScreenName(v: View)
    ensures ScreenName(v) in KnownScreens
    ensures Render(ScreenName(v)) == v
  {
  }

  // ----------------------------------------------------------------- handlers

  function SplashComplete(s: AppState): (r: AppState)
    ensures r.screen == "otp"
    ensures r.profile == s.profile && r.selectedChat == s.selectedChat && r.selectedContact == s.selectedContact
  {
    s.(screen := "otp")
  }

  /** The verified phone number is not kept anywhere. */
  function OtpVerified(s: AppState, phone: string): (r: AppState)
    ensures r.screen == "profile"
    ensures r.profile == s.profile && r.selectedChat == s.selectedChat && r.selectedContact == s.selectedContact
  {
    s.(screen := "profile")
  }

  lemma OtpVerifiedDiscardsPhone(s: AppState, p1: string, p2: string)
    ensures OtpVerified(s, p1) == OtpVerified(s, p2)
  {
  }

  function ProfileComplete(s: AppState, p: UserProfile): (r: AppState)
    ensures r.screen == "chats" && r.profile == Some(p)
    ensures r.selectedChat == s.selectedChat && r.selectedContact == s.selectedContact
  {
    s.(profile := Some(p), screen := "chats")
  }

  function SelectChat(s: AppState, conversation: Conversation, contact: Contact): (r: AppState)
    ensures r.screen == "chat" && r.selectedChat == Some(conversation) && r.selectedContact == Some(contact)
    ensures r.profile == s.profile
  {
    s.(selectedChat := Some(conversation), selectedContact := Some(contact), screen := "chat")
  }

  /** The conversation created when a contact has none in the directory; `now` is the clock reading. */
  function NewConversation(contact: Contact, now: int): Conversation {
    Conversation(now, contact.id, NewConversationPreview, NewConversationTimestamp, 0, true, false, false)
  }

  /** The directory's first conversation with the contact, or a fresh one stamped with the clock. */
  function ResolveConversation(dir: Directory, contact: Contact, now: int): (r: Conversation)
    ensures r.contactId == contact.id
    ensures dir.ConversationByContactId(contact.id).Some? ==> r in dir.conversations
    ensures dir.ConversationByContactId(contact.id).Some? ==> r == dir.ConversationByContactId(contact.id).value
    ensures dir.ConversationByContactId(contact.id).None? ==>
      && r.id == now && r.unread == 0 && r.encrypted && !r.pinned && !r.muted
      && r.lastMessage == NewConversationPreview && r.timestamp == NewConversationTimestamp
  {
    match dir.ConversationByContactId(contact.id)
    case Some(c) => c
    case None => NewConversation(contact, now)
  }

  function StartChat(dir: Directory, s: AppState, contact: Contact, now: int): (r: AppState)
    ensures r.screen == "chat" && r.selectedContact == Some(contact)
    ensures r.selectedChat == Some(ResolveConversation(dir, contact, now))
    ensures r.profile == s.profile
  {
    SelectChat(s, ResolveConversation(dir, contact, now), contact)
  }

  /** A contact with a directory conversation gets that record, whenever and however often it is asked. */
  lemma StartChatExisting(dir: Directory, s: AppState, contact: Contact, now1: int, now2: int)
    requires dir.ConversationByContactId(contact.id).Some?
    ensures StartChat(dir, s, contact, now1).selectedChat == dir.ConversationByContactId(contact.id)
    ensures StartChat(dir, StartChat(dir, s, contact, now1), contact, now2) == StartChat(dir, s, contact, now1)
  {
  }

  /** Without one, each start makes a record whose id is the clock reading, so two readings give two records. */
  lemma StartChatSynthesizes(dir: Directory, s: AppState, contact: Contact, now1: int, now2: int)
    requires dir.ConversationByContactId(contact.id).None?
    requires now1 != now2
    ensures StartChat(dir, s, contact, now1).selectedChat.value.id == now1
    ensures StartChat(dir, s, contact, now1).selectedChat != StartChat(dir, s, contact, now2).selectedChat
  {
  }

  /** The call type is not stored; only the contact is selected and the call-history screen shown. */
  function StartCall(s: AppState, contact: Contact, callType: CallType): (r: AppState)
    ensures r.screen == "calls" && r.selectedContact == Some(contact)
    ensures r.profile == s.profile && r.selectedChat == s.selectedChat
  {
    s.(selectedContact := Some(contact), screen := "calls")
  }

  /** A voice and a video request lead to the same state. */
  lemma StartCallIgnoresType(s: AppState, contact: Contact)
    ensures StartCall(s, contact, Voice) == StartCall(s, contact, Video)
  {
  }

  function UpdateProfile(s: AppState, p: UserProfile): (r: AppState)
    ensures r.profile == Some(p)
    ensures r.screen == s.screen && r.selectedChat == s.selectedChat && r.selectedContact == s.selectedContact
  {
    s.(profile := Some(p))
  }

  /** Any name is stored; an unknown one then renders as the splash screen. */
  function Navigate(s: AppState, screen: string): (r: AppState)
    ensures r.screen == screen
    ensures screen !in KnownScreens ==> Render(r.screen) == SplashView
    ensures r.profile == s.profile && r.selectedChat == s.selectedChat && r.selectedContact == s.selectedContact
  {
    s.(screen := screen)
  }

  function Back(s: AppState): (r: AppState)
    ensures r.profile == s.profile && r.selectedChat == s.selectedChat && r.selectedContact == s.selectedContact
  {
    if s.screen == "chat" || s.screen == "contacts" || s.screen == "calls" || s.screen == "settings"
    then s.(screen := "chats")
    else s
  }

  /** Back reaches the chat list exactly from the four inner screens and is a no-op elsewhere, the chat list included. */
  lemma BackTargets(s: AppState)
    ensures s.screen in BackScreens ==> Back(s).screen == "chats"
    ensures s.screen !in BackScreens ==> Back(s) == s
    ensures Back(s).screen == "chats" <==> s.screen in BackScreens || s.screen == "chats"
  {
  }

  function Logout(s: AppState): (r: AppState)
    ensures r == Init
  {
    s.(profile := None, selectedChat := None, selectedContact := None, screen := "splash")
  }

  // ------------------------------------------------------------------- events

  datatype Event =
    | SplashDone
    | PhoneVerified(phone: string)
    | ProfileDone(profile: UserProfile)
    | ChatSelected(conversation: Conversation, contact: Contact)
    | ChatStarted(contact: Contact)
    | CallStarted(contact: Contact, callType: CallType)
    | ProfileUpdated(profile: UserProfile)
    | NavigateTo(target: string)
    | BackPressed
    | LoggedOut

  /** One event handled to completion; `now` is the clock reading at that moment. */
  function Step(dir: Directory, s: AppState, e: Event, now: int): AppState {
    match e
    case SplashDone => SplashComplete(s)
    case PhoneVerified(phone) => OtpVerified(s, phone)
    case ProfileDone(p) => ProfileComplete(s, p)
    case ChatSelected(conv, c) => SelectChat(s, conv, c)
    case ChatStarted(c) => StartChat(dir, s, c, now)
    case CallStarted(c, t) => StartCall(s, c, t)
    case ProfileUpdated(p) => UpdateProfile(s, p)
    case NavigateTo(t) => Navigate(s, t)
    case BackPressed => Back(s)
    case LoggedOut => Logout(s)
  }

  /** A sequence of events, each paired with the clock reading when it is handled. */
  function Run(dir: Directory, s: AppState, trace: seq<(Event, int)>): AppState
    decreases |trace|
  {
    if trace == [] then s else Run(dir, Step(dir, s, trace[0].0, trace[0].1), trace[1..])
  }

  /** Which callbacks the screen on display can fire (the wiring of the screen switch). */
  predicate Offered(s: AppState, e: Event) {
    var v := Render(s.screen);
    match e
    case SplashDone => v == SplashView
    case PhoneVerified(_) => v == OtpView
    case ProfileDone(_) => v == ProfileView
    case ChatSelected(_, _) => v == ChatsView
    case ChatStarted(_) => v == ContactsView
    case CallStarted(_, _) => v == ContactsView || v == CallsView
    case ProfileUpdated(_) => v == SettingsView
    case NavigateTo(t) => t in NavTargets && (v == ChatsView || v == ContactsView || v == CallsView || v == SettingsView)
    case BackPressed => v == ChatView || v == ContactsView || v == CallsView || v == SettingsView
    case LoggedOut => v == SettingsView
  }

  predicate OfferedRun(dir: Directory, s: AppState, trace: seq<(Event, int)>)
    decreases |trace|
  {
    trace == [] || (Offered(s, trace[0].0) && OfferedRun(dir, Step(dir, s, trace[0].0, trace[0].1), trace[1..]))
  }

  /**
   The session invariant: the screen is always one of the eight, a signed-in
   screen is only shown with a profile, and the chat screen always has both a
   conversation and a contact selected.
   */
  ghost predicate Good(s: AppState) {
    && s.screen in KnownScreens
    && (s.screen in SessionScreens ==> s.profile.Some?)
    && (s.screen == "chat" ==> s.selectedChat.Some? && s.selectedContact.Some?)
  }

  lemma InitGood()
    ensures Good(Init)
  {
  }

  lemma StepKeepsGood(dir: Directory, s: AppState, e: Event, now: int)
    requires Good(s) && Offered(s, e)
    ensures Good(Step(dir, s, e, now))
  {
    RenderScreenName(Render(s.screen));
  }

  /** Following only the callbacks the UI offers, the invariant holds after every event. */
  lemma {:induction false} OfferedRunKeepsGood(dir: Directory, s: AppState, trace: seq<(Event, int)>)
    requires Good(s) && OfferedRun(dir, s, trace)
    ensures Good(Run(dir, s, trace))
    decreases |trace|
  {
    if trace != [] {
      StepKeepsGood(dir, s, trace[0].0, trace[0].1);
      OfferedRunKeepsGood(dir, Step(dir, s, trace[0].0, trace[0].1), trace[1..]);
    }
  }

  /** Splash, OTP, profile, then the third conversation: the chat screen with conversation 3 and contact 3. */
  lemma SignInAndOpenChat(profile: UserProfile, now: int)
    ensures
      var trace := [(SplashDone, now), (PhoneVerified("9876543210"), now), (ProfileDone(profile), now),
                    (ChatSelected(Seed.conversations[2], Seed.contacts[2]), now)];
      var r := Run(Seed, Init, trace);
      && OfferedRun(Seed, Init, trace)
      && r.screen == "chat" && r.profile == Some(profile)
      && r.selectedChat.Some? && r.selectedChat.value.id == 3
      && r.selectedContact.Some? && r.selectedContact.value.id == 3
  {
    var trace := [(SplashDone, now), (PhoneVerified("9876543210"), now), (ProfileDone(profile), now),
                  (ChatSelected(Seed.conversations[2], Seed.contacts[2]), now)];
    var s1 := SplashComplete(Init);
    var s2 := OtpVerified(s1, "9876543210");
    var s3 := ProfileComplete(s2, profile);
    var s4 := SelectChat(s3, Seed.conversations[2], Seed.contacts[2]);
    assert trace[1..][1..][1..][1..] == [];
    assert Run(Seed, s4, trace[1..][1..][1..][1..]) == s4;
    assert Run(Seed, s3, trace[1..][1..][1..]) == s4;
    assert Run(Seed, s2, trace[1..][1..]) == s4;
    assert Run(Seed, s1, trace[1..]) == s4;
    assert OfferedRun(Seed, s4, trace[1..][1..][1..][1..]);
    assert OfferedRun(Seed, s3, trace[1..][1..][1..]);
    assert OfferedRun(Seed, s2, trace[1..][1..]);
    assert OfferedRun(Seed, s1, trace[1..]);
  }
}

=== FILE: otp.dfy ===
/**
 The sign-in screen: a phone step that accepts exactly ten digits, then a code
 step with six one-character boxes, a verify button that accepts only the fixed
 code "123456", and a 30-second resend countdown driven by a once-per-second tick.
 */
module Otp {
  import opened Types
  import opened Text
  import Navigation
  import Directory

  datatype Step = PhoneStep | CodeStep

  datatype OtpState = OtpState(phone: string, otp: string, step: Step, resendTimer: nat, error: string)

  const InitOtp: OtpState := OtpState("", "", PhoneStep, 0, "")

  const PhoneLength: nat := 10
  const CodeLength: nat := 6
  const ResendDelay: nat := 30
  const AcceptedCode: string := "123456"

  const PhoneError: string := "Please enter a valid 10-digit phone number"
  const IncompleteCodeError: string := "Please enter all 6 digits"
  const WrongCodeError: string := "Invalid OTP. Try 123456"

  // ------------------------------------------------------------------ phone

  /** The phone field keeps only digits, and at most the first ten of them. */
  function SanitizePhone(raw: string): (r: string)
    ensures AllDigits(r)
    ensures |r| == if |Digits(raw)| < PhoneLength then |Digits(raw)| else PhoneLength
    ensures r == Digits(raw)[..|r|]
  {
    var d := Digits(raw);
    if |d| <= PhoneLength then d else d[..PhoneLength]
  }

  /** Sanitising what the field already holds changes nothing. */
  lemma SanitizeIdempotent(raw: string)
    ensures SanitizePhone(SanitizePhone(raw)) == SanitizePhone(raw)
  {
    DigitsOfDigits(SanitizePhone(raw));
  }

  function PhoneChanged(s: OtpState, raw: string): OtpState {
    s.(phone := SanitizePhone(raw))
  }

  /** Exactly ten digits move on to the code step with the resend countdown at 30; anything else reports an error. */
  function PhoneSubmit(s: OtpState): (r: OtpState)
    ensures |Digits(s.phone)| == PhoneLength ==> r == s.(step := CodeStep, resendTimer := ResendDelay, error := "")
    ensures |Digits(s.phone)| != PhoneLength ==> r == s.(error := PhoneError)
  {
    if |Digits(s.phone)| == PhoneLength then s.(step := CodeStep, resendTimer := 30, error := "")
    else s.(error := PhoneError)
  }

  /** Through the field, the code step is reached exactly when at least ten digits were typed. */
  lemma SubmitAfterTyping(s: OtpState, raw: string)
    requires s.step == PhoneStep
    ensures PhoneSubmit(PhoneChanged(s, raw)).step == CodeStep <==> |Digits(raw)| >= PhoneLength
  {
    DigitsOfDigits(SanitizePhone(raw));
  }

  // ------------------------------------------------------------------ code boxes

  /** `otp.split('')`: one single-character string per character. */
  function Split(otp: string): (parts: seq<string>)
    ensures |parts| == |otp|
    ensures forall i :: 0 <= i < |otp| ==> parts[i] == [otp[i]]
  {
    seq(|otp|, i requires 0 <= i < |otp| => [otp[i]])
  }

  /** `parts.join('')`; an unset array slot joins as the empty string. */
  function Join(parts: seq<string>): string {
    if parts == [] then "" else parts[0] + Join(parts[1..])
  }

  /** `parts[index] = value`: past the end the array grows, leaving empty holes before `value`. */
  function Assign(parts: seq<string>, index: nat, value: string): seq<string> {
    if index < |parts| then parts[index := value]
    else parts + seq(index - |parts|, _ => "") + [value]
  }

  /**
   One keystroke in box `index`; a value longer than one UTF-16 code unit (two
   characters, or one character outside the Basic Multilingual Plane) is ignored.
   */
  function OtpChange(s: OtpState, index: nat, value: string): (r: OtpState)
    ensures Utf16Length(value) > 1 ==> r == s
    ensures r.phone == s.phone && r.step == s.step && r.resendTimer == s.resendTimer && r.error == s.error
  {
    if Utf16Length(value) > 1 then s else s.(otp := Join(Assign(Split(s.otp), index, value)))
  }

  /** An emoji is two code units long, so the box ignores it. */
  lemma AstralValueIgnored(s: OtpState, index: nat)
    ensures OtpChange(s, index, "\U{1F600}") == s
  {
    assert Utf16Length("\U{1F600}") == 2;
  }

  lemma {:induction false} JoinConcat(a: seq<string>, b: seq<string>)
    ensures Join(a + b) == Join(a) + Join(b)
  {
    if a == [] {
      assert a + b == b;
    } else {
      assert (a + b)[1..] == a[1..] + b;
      JoinConcat(a[1..], b);
    }
  }

  lemma {:induction false} JoinSplit(otp: string)
    ensures Join(Split(otp)) == otp
  {
    if otp != [] {
      assert Split(otp)[1..] == Split(otp[1..]);
      JoinSplit(otp[1..]);
    }
  }

  lemma {:induction false} JoinHoles(n: nat)
    ensures Join(seq(n, _ => "")) == ""
  {
    if n > 0 {
      assert seq(n, _ => "")[1..] == seq(n - 1, _ => "");
      JoinHoles(n - 1);
    }
  }

  /** Assigning inside the code replaces one character by the value. */
  lemma EditInside(otp: string, index: nat, value: string)
    requires index < |otp|
    ensures Join(Assign(Split(otp), index, value)) == otp[..index] + value + otp[index + 1..]
  {
    var parts := Split(otp);
    assert parts == Split(otp[..index]) + [[otp[index]]] + Split(otp[index + 1..]);
    assert Assign(parts, index, value) == Split(otp[..index]) + [value] + Split(otp[index + 1..]);
    JoinConcat(Split(otp[..index]) + [value], Split(otp[index + 1..]));
    JoinConcat(Split(otp[..index]), [value]);
    JoinSplit(otp[..index]);
    JoinSplit(otp[index + 1..]);
    assert Join([value]) == value;
  }

  /** Assigning at or past the end appends the value; the holes join as nothing. */
  lemma EditAppend(otp: string, index: nat, value: string)
    requires index >= |otp|
    ensures Join(Assign(Split(otp), index, value)) == otp + value
  {
    var parts := Split(otp);
    var holes := seq(index - |parts|, _ => "");
    assert Assign(parts, index, value) == parts + holes + [value];
    JoinConcat(parts + holes, [value]);
    JoinConcat(parts, holes);
    JoinSplit(otp);
    JoinHoles(index - |parts|);
    assert Join([value]) == value;
    assert Join(parts + holes + [value]) == otp + "" + value;
  }

  /**
   The effect of a keystroke on the code: inside the code it replaces the character
   at `index` (an empty value deletes it, shifting the rest left); at or past the end
   it appends the value, whatever the index.
   */
  lemma EditEffect(s: OtpState, index: nat, value: string)
    requires Utf16Length(value) <= 1
    ensures index < |s.otp| ==> OtpChange(s, index, value).otp == s.otp[..index] + value + s.otp[index + 1..]
    ensures index >= |s.otp| ==> OtpChange(s, index, value).otp == s.otp + value
  {
    if index < |s.otp| {
      EditInside(s.otp, index, value);
    } else {
      EditAppend(s.otp, index, value);
    }
  }

  /**
   Keystrokes keep the code within the Basic Multilingual Plane, so from the empty
   code the characters of the model's string are exactly JavaScript's code units
   and `Split` is exactly `split('')`.
   */
  lemma OtpChangeKeepsBmp(s: OtpState, index: nat, value: string)
    requires AllBmp(s.otp)
    ensures AllBmp(OtpChange(s, index, value).otp)
  {
    if Utf16Length(value) <= 1 {
      ShortIsBmp(value);
      EditEffect(s, index, value);
      var r := OtpChange(s, index, value).otp;
      if index < |s.otp| {
        assert r == s.otp[..index] + value + s.otp[index + 1..];
        forall i | 0 <= i < |r|
          ensures IsBmp(r[i])
        {
          if i < index {
            assert r[i] == s.otp[i];
          } else if i < index + |value| {
            assert r[i] == value[i - index];
          } else {
            assert r[i] == s.otp[i - |value| + 1];
          }
        }
      } else {
        assert r == s.otp + value;
        forall i | 0 <= i < |r|
          ensures IsBmp(r[i])
        {
          if i >= |s.otp| {
            assert r[i] == value[i - |s.otp|];
          }
        }
      }
    }
  }

  /** Typing each character of `code` into the next empty box, left to right. */
  function TypeCode(s: OtpState, code: string): OtpState
    decreases |code|
  {
    if code == [] then s else TypeCode(OtpChange(s, |s.otp|, [code[0]]), code[1..])
  }

  /** Typed in order, characters of the Basic Multilingual Plane land behind the code already there, one per box. */
  lemma {:induction false} TypeCodeAppends(s: OtpState, code: string)
    requires AllBmp(code)
    ensures TypeCode(s, code).otp == s.otp + code
    ensures TypeCode(s, code).phone == s.phone && TypeCode(s, code).error == s.error
    decreases |code|
  {
    if code != [] {
      BmpTail(code);
      var s' := OtpChange(s, |s.otp|, [code[0]]);
      EditAppend(s.otp, |s.otp|, [code[0]]);
      TypeCodeAppends(s', code[1..]);
      assert s.otp + [code[0]] + code[1..] == s.otp + code;
    }
  }

  /** The first character of a string within the plane is one code unit, and the rest stays within the plane. */
  lemma BmpTail(code: string)
    requires code != [] && AllBmp(code)
    ensures Utf16Length([code[0]]) == 1 && AllBmp(code[1..])
  {
    assert IsBmp(code[0]);
    forall i | 0 <= i < |code[1..]|
      ensures IsBmp(code[1..][i])
    {
      assert code[1..][i] == code[i + 1];
    }
  }

  // ------------------------------------------------------------------ verify

  datatype VerifyOutcome = VerifyOutcome(state: OtpState, emitted: Option<Navigation.Event>)

  /**
   A code that is not six UTF-16 code units long only reports. The accepted code
   hands the phone number to the application; any other code of that length
   reports and clears the boxes.
   */
  function Verify(s: OtpState): (r: VerifyOutcome)
    ensures r.emitted.Some? <==> s.otp == AcceptedCode
    ensures r.emitted.Some? ==> r.emitted.value == Navigation.PhoneVerified(s.phone) && r.state == s
    ensures Utf16Length(s.otp) != CodeLength ==> r.state == s.(error := IncompleteCodeError)
    ensures Utf16Length(s.otp) == CodeLength && s.otp != AcceptedCode ==> r.state == s.(error := WrongCodeError, otp := "")
  {
    assert Utf16Length(AcceptedCode) == 6;
    if Utf16Length(s.otp) != 6 then VerifyOutcome(s.(error := IncompleteCodeError), None)
    else if s.otp == AcceptedCode then VerifyOutcome(s, Some(Navigation.PhoneVerified(s.phone)))
    else VerifyOutcome(s.(error := WrongCodeError, otp := ""), None)
  }

  /**
   From empty boxes, typing a code and pressing verify signs in exactly for
   "123456": the application then shows the profile-setup screen. Any other
   six-character code clears the boxes.
   */
  lemma TypedCodeSignsIn(dir: Directory.Directory, app: Navigation.AppState, s: OtpState, code: string, now: int)
    requires s.otp == "" && AllBmp(code)
    ensures Verify(TypeCode(s, code)).emitted.Some? <==> code == AcceptedCode
    ensures code == AcceptedCode ==>
      Navigation.Step(dir, app, Verify(TypeCode(s, code)).emitted.value, now).screen == "profile"
    ensures |code| == CodeLength && code != AcceptedCode ==> Verify(TypeCode(s, code)).state.otp == ""
  {
    TypeCodeAppends(s, code);
    assert s.otp + code == code;
  }

  // ------------------------------------------------------------------ resend

  /** One second of the countdown; it stops at 0. */
  function ResendTick(s: OtpState): (r: OtpState)
    ensures r.resendTimer == if s.resendTimer > 0 then s.resendTimer - 1 else 0
    ensures r.phone == s.phone && r.otp == s.otp && r.step == s.step && r.error == s.error
  {
    if s.resendTimer > 0 then s.(resendTimer := s.resendTimer - 1) else s
  }

  function ResendTicks(s: OtpState, k: nat): OtpState
    decreases k
  {
    if k == 0 then s else ResendTicks(ResendTick(s), k - 1)
  }

  /** After `k` seconds the countdown reads `t - k`, but never less than 0. */
  lemma {:induction false} CountdownAfter(s: OtpState, k: nat)
    ensures ResendTicks(s, k).resendTimer == if s.resendTimer >= k then s.resendTimer - k else 0
    decreases k
  {
    if k > 0 {
      CountdownAfter(ResendTick(s), k - 1);
    }
  }

  /** The resend button is enabled only at 0, and restarts the countdown at 30. */
  function ResendClicked(s: OtpState): (r: OtpState)
    ensures s.resendTimer > 0 ==> r == s
    ensures s.resendTimer == 0 ==> r.resendTimer == ResendDelay
    ensures r.phone == s.phone && r.otp == s.otp && r.step == s.step && r.error == s.error
  {
    if s.resendTimer > 0 then s else s.(resendTimer := 30)
  }

  /** Once resend is used, it is offered again after exactly thirty ticks. */
  lemma ResendReenabledAfter30(s: OtpState)
    requires s.resendTimer == 0
    ensures ResendTicks(ResendClicked(s), 29).resendTimer > 0
    ensures ResendTicks(ResendClicked(s), 30).resendTimer == 0
  {
    CountdownAfter(ResendClicked(s), 29);
    CountdownAfter(ResendClicked(s), 30);
  }
}

=== FILE: profile_setup.dfy ===
/**
 The profile-setup screen: display name, optional status and a security toggle.
 Completing it hands a new profile to the application, or reports a missing name.
 */
module ProfileSetup {
  import opened Types
  import opened Text
  import Navigation

  datatype Form = Form(displayName: string, status: string, security: bool, error: string)

  /** The security toggle starts switched on. */
  const InitForm: Form := Form("", "", true, "")

  const NameError: string := "Please enter your display name"

  /** Country prefix put in front of the phone number the screen is given. */
  const PhonePrefix: string := "+91 "

  function SetName(f: Form, name: string): Form {
    f.(displayName := name)
  }

  function SetStatus(f: Form, status: string): Form {
    f.(status := status)
  }

  function ToggleSecurity(f: Form): (r: Form)
    ensures r.security == !f.security
    ensures r.displayName == f.displayName && r.status == f.status && r.error == f.error
  {
    f.(security := !f.security)
  }

  datatype Outcome = Outcome(form: Form, emitted: Option<Navigation.Event>)

  /**
   A name that is white space throughout reports the error and emits nothing.
   Otherwise the profile carries the name as typed (untrimmed), the status or the
   default status when none was typed, the phone behind the "+91 " prefix, the
   standard avatar and the toggle's value.
   */
  function Complete(f: Form, phone: string): (r: Outcome)
    ensures AllSpace(f.displayName) <==> r.emitted.None?
    ensures r.emitted.None? ==> r.form == f.(error := NameError)
    ensures r.emitted.Some? ==> r.form == f && r.emitted.value.ProfileDone?
    ensures r.emitted.Some? ==>
      var p := r.emitted.value.profile;
      && p.displayName == f.displayName
      && (f.status == "" ==> p.status == DefaultStatus)
      && (f.status != "" ==> p.status == f.status)
      && p.phone == PhonePrefix + phone
      && p.avatar == ProfileAvatar
      && p.security == f.security
  {
    TrimEmptyIff(f.displayName);
    if Trim(f.displayName) != [] then
      var status := if f.status != "" then f.status else DefaultStatus;
      Outcome(f, Some(Navigation.ProfileDone(UserProfile(f.displayName, status, "+91 " + phone, ProfileAvatar, f.security))))
    else
      Outcome(f.(error := NameError), None)
  }

  /** Completing the form the application opens (phone "9876543210") yields that number with the prefix, whatever was verified. */
  lemma CompleteFromApplication(f: Form)
    ensures Complete(f, Navigation.ProfileSetupPhone).emitted.Some? ==>
      Complete(f, Navigation.ProfileSetupPhone).emitted.value.profile.phone == "+91 9876543210"
  {
    assert PhonePrefix + Navigation.ProfileSetupPhone == "+91 9876543210";
  }

  /** Without touching the toggle, the profile is created with security on. */
  lemma DefaultSecurityOn(name: string, status: string, phone: string)
    ensures Complete(SetStatus(SetName(InitForm, name), status), phone).emitted.Some? ==>
      Complete(SetStatus(SetName(InitForm, name), status), phone).emitted.value.profile.security
  {
  }
}

=== FILE: seqs.dfy ===
/**
 Order-preserving filtering of sequences, the model of `Array.prototype.filter`
 with a side-effect-free callback. The lemmas are what the list screens rely on:
 filtering distributes over concatenation (so relative order is kept), a
 predicate that holds everywhere keeps the whole list, and two filters in a row
 are one filter by the conjunction.
 */
module Seqs {
  import opened Types

  function Filter<T>(s: seq<T>, p: T -> bool): (r: seq<T>)
    ensures |r| <= |s|
    ensures forall i :: 0 <= i < |r| ==> p(r[i])
    ensures forall i :: 0 <= i < |r| ==> r[i] in s
    ensures forall i :: 0 <= i < |s| && p(s[i]) ==> s[i] in r
  {
    if s == [] then []
    else if p(s[0]) then [s[0]] + Filter(s[1..], p)
    else Filter(s[1..], p)
  }

  /** Each element that passes is kept as many times as it occurs; the others are dropped. */
  lemma {:induction false} FilterCounts<T>(s: seq<T>, p: T -> bool)
    ensures forall x :: multiset(Filter(s, p))[x] == if p(x) then multiset(s)[x] else 0
  {
    if s != [] {
      FilterCounts(s[1..], p);
      assert s == [s[0]] + s[1..];
      assert multiset(s) == multiset([s[0]]) + multiset(s[1..]);
      if p(s[0]) {
        assert multiset(Filter(s, p)) == multiset([s[0]]) + multiset(Filter(s[1..], p));
      }
    }
  }

  /** Filtering a concatenation filters each part and keeps them in order. */
  lemma {:induction false} FilterConcat<T>(a: seq<T>, b: seq<T>, p: T -> bool)
    ensures Filter(a + b, p) == Filter(a, p) + Filter(b, p)
  {
    if a == [] {
      assert a + b == b;
    } else {
      assert (a + b)[0] == a[0];
      assert (a + b)[1..] == a[1..] + b;
      FilterConcat(a[1..], b, p);
    }
  }

  /** A predicate true of every element keeps the whole sequence. */
  lemma {:induction false} FilterKeepsAll<T>(s: seq<T>, p: T -> bool)
    requires forall i :: 0 <= i < |s| ==> p(s[i])
    ensures Filter(s, p) == s
  {
    if s != [] {
      FilterKeepsAll(s[1..], p);
    }
  }

  /** Only the predicate's values on the elements present matter. */
  lemma {:induction false} FilterCongruent<T>(s: seq<T>, p: T -> bool, q: T -> bool)
    requires forall i :: 0 <= i < |s| ==> p(s[i]) == q(s[i])
    ensures Filter(s, p) == Filter(s, q)
  {
    if s != [] {
      FilterCongruent(s[1..], p, q);
    }
  }

  /** Filtering by `p` and then by `q` is filtering by their conjunction. */
  lemma {:induction false} FilterTwice<T>(s: seq<T>, p: T -> bool, q: T -> bool, pq: T -> bool)
    requires forall x :: pq(x) == (p(x) && q(x))
    ensures Filter(Filter(s, p), q) == Filter(s, pq)
  {
    if s != [] {
      FilterTwice(s[1..], p, q, pq);
      if p(s[0]) {
        assert Filter(s, p) == [s[0]] + Filter(s[1..], p);
        FilterConcat([s[0]], Filter(s[1..], p), q);
      }
    }
  }

  /** `Array.prototype.find`: the first element satisfying `p`, if any. */
  function Find<T>(s: seq<T>, p: T -> bool): (r: Option<T>)
    ensures r.None? <==> forall i :: 0 <= i < |s| ==> !p(s[i])
    ensures r.Some? ==> p(r.value) && exists i :: 0 <= i < |s| && s[i] == r.value && forall j :: 0 <= j < i ==> !p(s[j])
  {
    if s == [] then None
    else if p(s[0]) then Some(s[0])
    else
      var r := Find(s[1..], p);
      assert r.Some? ==> exists i :: 0 <= i < |s| - 1 && s[1..][i] == r.value && forall j :: 0 <= j < i ==> !p(s[1..][j]);
      r
  }

  /** A predicate false of every element keeps nothing. */
  lemma {:induction false} FilterKeepsNone<T>(s: seq<T>, p: T -> bool)
    requires forall i :: 0 <= i < |s| ==> !p(s[i])
    ensures Filter(s, p) == []
  {
    if s != [] {
      FilterKeepsNone(s[1..], p);
    }
  }

  /** `a` is `b` with some elements left out, the rest in their original order. */
  ghost predicate IsSubsequence<T>(a: seq<T>, b: seq<T>)
    decreases |b|
  {
    if a == [] then true
    else if b == [] then false
    else (a[0] == b[0] && IsSubsequence(a[1..], b[1..])) || IsSubsequence(a, b[1..])
  }

  /** Filtering never reorders. */
  lemma {:induction false} FilterIsSubsequence<T>(s: seq<T>, p: T -> bool)
    ensures IsSubsequence(Filter(s, p), s)
  {
    if s != [] {
      FilterIsSubsequence(s[1..], p);
      var r := Filter(s[1..], p);
      if p(s[0]) {
        assert Filter(s, p)[0] == s[0] && Filter(s, p)[1..] == r;
      } else if Filter(s, p) != [] {
        assert Filter(s, p) == r;
      }
    }
  }
}

=== FILE: settings.dfy ===
/**
 The settings screen: three preference switches, an edit mode over a draft of
 the profile with save and cancel, and a placeholder when there is no profile.
 */
module Settings {
  import opened Types
  import Navigation
  import Directory

  datatype Preference = Notifications | Security | ReadReceipts

  datatype SettingsState = SettingsState(
    notifications: bool,
    security: bool,
    readReceipts: bool,
    editing: bool,
    draft: UserProfile)

  /** The draft used when the screen opens without a profile. */
  const DefaultDraft: UserProfile := UserProfile("User", DefaultStatus, "+91 ", ProfileAvatar, true)

  /** All three switches start on, edit mode off, and the draft is the profile (or the default). */
  function Open(profile: Option<UserProfile>): (r: SettingsState)
    ensures r.notifications && r.security && r.readReceipts && !r.editing
    ensures profile.Some? ==> r.draft == profile.value
    ensures profile.None? ==> r.draft.displayName == "User" && r.draft == DefaultDraft
  {
    SettingsState(true, true, true, false, if profile.Some? then profile.value else DefaultDraft)
  }

  function Value(s: SettingsState, p: Preference): bool {
    match p
    case Notifications => s.notifications
    case Security => s.security
    case ReadReceipts => s.readReceipts
  }

  /** Each switch flips only its own preference. */
  function Toggle(s: SettingsState, p: Preference): (r: SettingsState)
    ensures Value(r, p) == !Value(s, p)
    ensures forall q :: q != p ==> Value(r, q) == Value(s, q)
    ensures r.editing == s.editing && r.draft == s.draft
  {
    match p
    case Notifications => s.(notifications := !s.notifications)
    case Security => s.(security := !s.security)
    case ReadReceipts => s.(readReceipts := !s.readReceipts)
  }

  function StartEdit(s: SettingsState): SettingsState {
    s.(editing := true)
  }

  function EditName(s: SettingsState, name: string): SettingsState {
    s.(draft := s.draft.(displayName := name))
  }

  function EditStatus(s: SettingsState, status: string): SettingsState {
    s.(draft := s.draft.(status := status))
  }

  datatype SaveOutcome = SaveOutcome(state: SettingsState, emitted: Navigation.Event)

  /** Save hands the draft to the application and leaves edit mode. */
  function Save(s: SettingsState): (r: SaveOutcome)
    ensures r.emitted == Navigation.ProfileUpdated(s.draft)
    ensures !r.state.editing && r.state.draft == s.draft
  {
    SaveOutcome(s.(editing := false), Navigation.ProfileUpdated(s.draft))
  }

  /** Cancel leaves edit mode, emits nothing and keeps the draft as edited. */
  function Cancel(s: SettingsState): (r: SettingsState)
    ensures !r.editing && r.draft == s.draft
  {
    s.(editing := false)
  }

  /** Edits abandoned with cancel are still in the draft when editing resumes. */
  lemma CancelKeepsEdits(s: SettingsState, name: string)
    ensures StartEdit(Cancel(EditName(StartEdit(s), name))).draft.displayName == name
  {
  }

  /** Saving an edited name makes the application's profile carry it, on the same screen. */
  lemma SaveUpdatesProfile(app: Navigation.AppState, s: SettingsState, name: string)
    ensures
      var app' := Navigation.Step(Directory.Seed, app, Save(EditName(s, name)).emitted, 0);
      app'.profile.Some? && app'.profile.value.displayName == name && app'.screen == app.screen
  {
  }

  datatype Screen = NoProfile | Page(shown: UserProfile, editing: bool, draft: UserProfile)

  /** Without a profile only the placeholder is shown. */
  function Render(profile: Option<UserProfile>, s: SettingsState): (r: Screen)
    ensures r.NoProfile? <==> profile.None?
    ensures r.Page? ==> r.shown == profile.value && r.editing == s.editing && r.draft == s.draft
  {
    match profile
    case None => NoProfile
    case Some(p) => Page(p, s.editing, s.draft)
  }

  /** On a settings screen the UI reached there is always a profile, so the placeholder never shows. */
  lemma ReachedSettingsHasProfile(app: Navigation.AppState, s: SettingsState)
    requires Navigation.Good(app) && app.screen == "settings"
    ensures Render(app.profile, s).Page?
  {
  }
}

=== FILE: text.dfy ===
/**
 The string operations the screens call: `toLowerCase` (ASCII letters only),
 `includes`, `trim`, the `\D` strip of the phone field, decimal rendering of a
 non-negative number, `padStart`, and the UTF-16 `length` of a JavaScript string.
 */
module Text {
  import Seqs

  // ---------------------------------------------------------------- case fold

  predicate IsUpper(c: char) { 'A' <= c <= 'Z' }

  function LowerChar(c: char): char {
    if IsUpper(c) then (c as int + 32) as char else c
  }

  /** `toLowerCase`, folding only the ASCII letters A-Z. */
  function Lower(s: string): (r: string)
    ensures |r| == |s|
    ensures forall i :: 0 <= i < |s| ==> r[i] == LowerChar(s[i])
  {
    seq(|s|, i requires 0 <= i < |s| => LowerChar(s[i]))
  }

  // ---------------------------------------------------------------- includes

  predicate IsPrefix(p: string, s: string) {
    |p| <= |s| && s[..|p|] == p
  }

  /** `hay.includes(needle)`, scanning left to right. */
  function Contains(hay: string, needle: string): bool
    decreases |hay|
  {
    IsPrefix(needle, hay) || (|hay| > 0 && Contains(hay[1..], needle))
  }

  /** `needle` occurs in `hay` starting at position `i`. */
  ghost predicate OccursAt(hay: string, needle: string, i: int) {
    0 <= i && i + |needle| <= |hay| && hay[i..i + |needle|] == needle
  }

  /** The scan finds the needle exactly when it occurs at some position. */
  lemma {:induction false} ContainsIffOccurs(hay: string, needle: string)
    ensures Contains(hay, needle) <==> exists i :: OccursAt(hay, needle, i)
    decreases |hay|
  {
    if IsPrefix(needle, hay) {
      assert OccursAt(hay, needle, 0);
    } else if |hay| > 0 {
      ContainsIffOccurs(hay[1..], needle);
      if Contains(hay[1..], needle) {
        var i :| OccursAt(hay[1..], needle, i);
        assert hay[1..][i..i + |needle|] == hay[i + 1..i + 1 + |needle|];
        assert OccursAt(hay, needle, i + 1);
      } else {
        forall i
          ensures !OccursAt(hay, needle, i)
        {
          if i == 0 && |needle| <= |hay| {
            assert hay[0..|needle|] == hay[..|needle|];
          } else if 0 < i && i + |needle| <= |hay| {
            assert !OccursAt(hay[1..], needle, i - 1);
            assert hay[1..][i - 1..i - 1 + |needle|] == hay[i..i + |needle|];
          }
        }
      }
    }
  }

  /** Every string includes the empty string. */
  lemma ContainsEmpty(hay: string)
    ensures Contains(hay, "")
  {
    assert IsPrefix("", hay);
  }

  // ---------------------------------------------------------------- trim

  /** The characters `String.prototype.trim` removes: white space and line terminators. */
  predicate IsSpace(c: char) {
    || c == ' ' || c == '\t' || c == '\n' || c == '\r' || c == '\U{000B}' || c == '\U{000C}'
    || c == '\U{00A0}' || c == '\U{1680}' || ('\U{2000}' <= c <= '\U{200A}')
    || c == '\U{2028}' || c == '\U{2029}' || c == '\U{202F}' || c == '\U{205F}'
    || c == '\U{3000}' || c == '\U{FEFF}'
  }

  function TrimStart(s: string): (r: string)
    ensures |r| <= |s| && r == s[|s| - |r|..]
    ensures r != [] ==> !IsSpace(r[0])
    ensures forall i :: 0 <= i < |s| - |r| ==> IsSpace(s[i])
  {
    if s != [] && IsSpace(s[0]) then TrimStart(s[1..]) else s
  }

  function TrimEnd(s: string): (r: string)
    ensures |r| <= |s| && r == s[..|r|]
    ensures r != [] ==> !IsSpace(r[|r| - 1])
    ensures forall i :: |r| <= i < |s| ==> IsSpace(s[i])
  {
    if s != [] && IsSpace(s[|s| - 1]) then TrimEnd(s[..|s| - 1]) else s
  }

  /** `trim`: strips white space from both ends. */
  function Trim(s: string): string {
    TrimEnd(TrimStart(s))
  }

  /** White space throughout (vacuously so for the empty string). */
  predicate AllSpace(s: string) {
    forall i :: 0 <= i < |s| ==> IsSpace(s[i])
  }

  /** A string trims to nothing exactly when it is white space throughout. */
  lemma TrimEmptyIff(s: string)
    ensures Trim(s) == [] <==> AllSpace(s)
  {
    var a := TrimStart(s);
    if Trim(s) == [] {
      assert a == [];
    } else {
      assert !IsSpace(a[0]);
      assert s[|s| - |a|] == a[0];
    }
  }

  // ---------------------------------------------------------------- digits

  predicate IsDigit(c: char) { '0' <= c <= '9' }

  predicate AllDigits(s: string) {
    forall i :: 0 <= i < |s| ==> IsDigit(s[i])
  }

  /** `s.replace(/\D/g, '')`: keeps the ASCII digits, in order. */
  function Digits(s: string): (r: string)
    ensures AllDigits(r)
    ensures |r| <= |s|
  {
    Seqs.Filter(s, IsDigit)
  }

  /** Stripping non-digits from a string of digits changes nothing. */
  lemma DigitsOfDigits(s: string)
    requires AllDigits(s)
    ensures Digits(s) == s
  {
    Seqs.FilterKeepsAll(s, IsDigit);
  }

  // ---------------------------------------------------------------- numbers

  function DigitChar(d: nat): (c: char)
    requires d < 10
    ensures IsDigit(c)
  {
    ('0' as int + d) as char
  }

  function DigitValue(c: char): nat
    requires IsDigit(c)
  {
    c as int - '0' as int
  }

  /** Decimal rendering of a non-negative integer, as `Number.prototype.toString` gives it. */
  function DecimalString(n: nat): (r: string)
    ensures 0 < |r| && AllDigits(r)
    ensures n == 0 ==> r == "0"
    ensures n > 0 ==> r[0] != '0'
  {
    if n < 10 then [DigitChar(n)] else DecimalString(n / 10) + [DigitChar(n % 10)]
  }

  /** The number a string of decimal digits denotes. */
  function DecimalValue(s: string): nat
    requires AllDigits(s)
  {
    if s == [] then 0 else DecimalValue(s[..|s| - 1]) * 10 + DigitValue(s[|s| - 1])
  }

  /** Reading back a rendered number gives the number. */
  lemma {:induction false} DecimalRoundTrip(n: nat)
    ensures DecimalValue(DecimalString(n)) == n
  {
    var r := DecimalString(n);
    if n >= 10 {
      DecimalRoundTrip(n / 10);
      assert r[..|r| - 1] == DecimalString(n / 10);
    }
  }

  /** `s.padStart(width, fill)`: fills on the left up to `width` characters. */
  function PadStart(s: string, width: nat, fill: char): (r: string)
    ensures |r| == if |s| >= width then |s| else width
    ensures r[|r| - |s|..] == s
    ensures forall i :: 0 <= i < |r| - |s| ==> r[i] == fill
  {
    if |s| >= width then s else seq(width - |s|, _ => fill) + s
  }

  // ------------------------------------------------------------------ UTF-16

  /** A character of the Basic Multilingual Plane: one UTF-16 code unit. */
  predicate IsBmp(c: char) { (c as int) < 0x1_0000 }

  predicate AllBmp(s: string) {
    forall i :: 0 <= i < |s| ==> IsBmp(s[i])
  }

  /**
   JavaScript's `length`: the number of UTF-16 code units, where a character
   outside the Basic Multilingual Plane takes two.
   */
  function Utf16Length(s: string): (n: nat)
    ensures n >= |s|
    ensures n == |s| <==> AllBmp(s)
  {
    if s == [] then 0
    else (if IsBmp(s[0]) then 1 else 2) + Utf16Length(s[1..])
  }

  /** A value of length at most 1 is empty or one character of the Basic Multilingual Plane. */
  lemma ShortIsBmp(s: string)
    requires Utf16Length(s) <= 1
    ensures |s| <= 1 && AllBmp(s)
  {
  }
}

=== FILE: types.dfy ===
/**
 The records shared by every screen of the messenger: contacts, conversation
 summaries, call-history entries, chat messages, the user's own profile and the
 call in progress. Every closed string union of the front-end becomes an
 enumeration here, so a value outside the union cannot be written down.
 */
module Types {

  datatype Option<+T> = None | Some(value: T)

  /** Presence of a contact: exactly one of three. */
  datatype Status = Online | Offline | Away

  /** Kind of call, shared by call-history entries and the active call. */
  datatype CallType = Voice | Video

  /** Who wrote a chat message. */
  datatype Sender = User | Other

  /** Payload kind of a chat message. */
  datatype MessageType = PlainText | Image | File

  datatype Contact = Contact(
    id: int,
    name: string,
    status: Status,
    lastSeen: string,
    avatar: string,
    phone: string,
    isContact: bool)

  /** A chat-thread summary; `encrypted`, `pinned` and `muted` are independent flags. */
  datatype Conversation = Conversation(
    id: int,
    contactId: int,
    lastMessage: string,
    timestamp: string,
    unread: int,
    encrypted: bool,
    pinned: bool,
    muted: bool)

  datatype CallHistory = CallHistory(
    id: int,
    contactId: int,
    callType: CallType,
    duration: string,
    timestamp: string,
    missed: bool,
    incoming: bool)

  datatype Message = Message(
    id: int,
    text: string,
    sender: Sender,
    timestamp: string,
    read: bool,
    messageType: MessageType)

  datatype UserProfile = UserProfile(
    displayName: string,
    status: string,
    phone: string,
    avatar: string,
    security: bool)

  datatype ActiveCall = ActiveCall(contact: Contact, callType: CallType)

  /** The avatar glyph every locally created profile carries (U+1F464, bust in silhouette). */
  const ProfileAvatar: string := "\U{1F464}"

  /** The status text a profile gets when none is typed. */
  const DefaultStatus: string := "Hey there! I am using DAMRU"
}
